=== FILE: README.md ===
# Note Shield, modelled in Dafny

Note Shield is an Obsidian plugin that keeps notes as OpenPGP-encrypted
`.pgp` files. This project models its core as pure Dafny functions over
immutable data:

- **Key registry** (`KeyRegistry`): the loop of `loadSettings`, which parses
  every key file under `.pgp` and merges it into the `KeyInfo` records by key
  id. The merge only fills slots that are still empty. The module also holds
  `saveKeys` and the file name `createPGPNote` gives a new note.
- **OpenPGP adapter** (`OpenPgp`):
  - the algorithm table and `getAlgorithm`;
  - the handler's parse step;
  - the guards of `encryptMessage` and `decryptMessage`: a private key never
    encrypts and a public key never decrypts;
  - the passphrase rule: only a locked private key is unlocked;
  - `generateKey`.
- **Note view** (`NoteView`): the three screens (new note, locked note,
  editing), `setView`, `setViewData`, `lockNote` and `encryptAndSave`. It
  also covers the bookkeeping of the "lock_note" action, which keeps at most
  one Lock button in the header.
- **The three screens' forms**:
  - `DecryptView` unlocks a note with a chosen private key and passphrase.
  - `NewNoteView` binds an empty note to a recipient's public key and renames
    the file.
  - `NoteView.Input` handles typing in the editor.
- **Settings**:
  - `CreateKey`: the key-creation form, with its defaults, lifetimes,
    required fields, save toggle and download.
  - `UploadKey`: the two upload modals.
- **Key-id formatting** (`FormatKeyId`): the `/.{1,4}/g` scan, the join with
  spaces and the upper-casing.
- **Memory storage** (`MemoryStorage`): a key–value store with lazy expiry.
- **Whole note life cycles** (`Lifecycle`): create, edit, lock and unlock.

The OpenPGP library is a parameter. `OpenPgp.Engine` is a record of total
functions, one per library call used:

- `readKey`
- `readMessage`
- `decryptKey` (as `unlockKey`)
- `decrypt`
- `encrypt`
- `generateKey` (as `generate`)
- `noKeyError`: the message `readKey` throws when given no armored key

Each function returns a `Result`, and a thrown error becomes a `Failure`
carrying its message. The vault, the clock and the clipboard are modelled
in one of two ways:

- as values passed in: the vault's answer to a write or rename, and the
  local time;
- as values returned: the writes issued, the notices shown, the download
  offered.

JavaScript truthiness is spelled out:

- A private slot is missing when it is absent or holds `""`.
- A public slot is missing when it holds `""`.
- An expiration of `0` means "never".
- A handler built from `""` has no key, so its `init` hands `readKey` no
  armored key and the library throws its own error (`Engine.noKeyError`).

## Model

| member | source | states |
|---|---|---|
| FormatKeyId.Groups | utils/formatKeyId.ts:7-8 | every match of `.{1,4}` holds one to four characters and never a line terminator |
| FormatKeyId.GroupsCoverVisible | utils/formatKeyId.ts:8 | the matches, concatenated, are exactly the id's characters other than line terminators, in order: nothing is lost or repeated |
| FormatKeyId.GroupsEmptyIff | utils/formatKeyId.ts:8-10 | `match` finds nothing exactly when every character of the id is a line terminator |
| FormatKeyId.Format | utils/formatKeyId.ts:6-15 | no match gives "Invalid"; otherwise the result contains no lower-case letter |
| FormatKeyId.FormatInvalidIff | utils/formatKeyId.ts:8-10 | the result is "Invalid" if and only if the id has no matchable character; the empty id is "Invalid" |
| FormatKeyId.GroupsOfClean | utils/formatKeyId.ts:8 | an id of n characters without line terminators splits into ceil(n/4) groups, all of length 4 except the last, holding n characters in all |
| FormatKeyId.FormatLength | utils/formatKeyId.ts:12 | such a non-empty id formats to n + ceil(n/4) - 1 characters: the id plus one space between consecutive groups |
| FormatKeyId.FormatRemoveSpaces | utils/formatKeyId.ts:12-13 | removing the spaces from a formatted id gives the upper-cased matchable characters of the id |
| FormatKeyId.FormatHexId | utils/formatKeyId.ts:6-15 | a non-empty hexadecimal key id is never "Invalid", and removing the spaces of its formatted form gives back the id upper-cased |
| Text.Upper | utils/formatKeyId.ts:13 | `toUpperCase` maps each ASCII lower-case letter to its upper-case letter, keeps every other character and keeps the length |
| Text.UpperChar | utils/formatKeyId.ts:13 | a lower-case letter becomes the capital 32 code points below it; every other character is kept |
| Text.LowerUpperChar | utils/formatKeyId.ts:13 | lower-casing the capital of a lower-case letter gives the letter back, so no two letters share a capital |
| Text.UpperIdempotent | utils/formatKeyId.ts:13 | upper-casing twice is upper-casing once |
| Text.JoinLength | utils/formatKeyId.ts:12 | `join(" ")` of k parts has the parts' total length plus k - 1 |
| Text.RemoveSpacesJoin | utils/formatKeyId.ts:12 | removing the spaces from a space-join gives the parts' concatenation with its spaces removed: the separator adds nothing else |
| Text.NumberOf | services/openpgp.ts:122 | `Number` of a string is NaN (None) exactly when some character is not a decimal digit |
| Text.NumberOfDecimal | services/openpgp.ts:122 | `Number(String(n)) == n` for every natural n |
| Text.Pad2RoundTrip | main.ts:186-190 | `padStart(2, "0")` of n < 100 has two characters and reads back as n |
| MemoryStorage.Empty | services/storage.ts:9-11 | a new store holds no entry |
| MemoryStorage.ExpirationFor | services/storage.ts:26-28 | an absent or zero duration stores no expiration; otherwise the expiration lies exactly the duration after `now` |
| MemoryStorage.IsExpired | services/storage.ts:13-19 | an entry is expired exactly when it is stored with a non-zero expiration and now is strictly past it |
| MemoryStorage.SetExpiresIff | services/storage.ts:13-31 | an entry set at time t with duration d is expired exactly when d is non-zero, t + d is not the falsy 0, and now is strictly past t + d |
| MemoryStorage.Set | services/storage.ts:21-31 | the key is added or replaced with the value and its expiration; every other entry is unchanged |
| MemoryStorage.Remove | services/storage.ts:43-45 | exactly the key is gone; every other entry is unchanged |
| MemoryStorage.Get | services/storage.ts:13-41 | an expired entry is removed and reads as undefined; otherwise the store is untouched and the read returns the stored value exactly when the key is present |
| MemoryStorage.Update | services/storage.ts:47-53 | an absent key leaves the store as it was and a present key is `set`; the call throws "this.data.hasOwnProperty is not a function" exactly when an entry named "hasOwnProperty" is stored |
| MemoryStorage.ShadowedUpdateFails | services/storage.ts:21-53 | after `set("hasOwnProperty", …)` every `update` throws, whatever its key; removing that entry makes `update` work again |
| MemoryStorage.Clear | services/storage.ts:55-57 | no key is left |
| MemoryStorage.AllKeys | services/storage.ts:59-61 | the returned keys are exactly the stored keys, each once |
| MemoryStorage.SetWithoutExpiryNeverExpires | services/storage.ts:13-31 | an entry set without a (non-zero) duration is never expired and always reads back |
| MemoryStorage.SetThenGet | services/storage.ts:13-41 | until its expiration an entry reads back as set, and the read changes nothing |
| MemoryStorage.SetThenGetExpired | services/storage.ts:13-45 | after its expiration an entry reads as undefined and is deleted, and every other entry survives |
| MemoryStorage.GetKeepsOtherKeys | services/storage.ts:33-45 | a read never changes an entry under another key |
| OpenPgp.GetAlgorithm | services/openpgp.ts:53-88 | an unknown value fails with "Unsupported algorithm: " and the value |
| OpenPgp.AlgorithmListValues | services/openpgp.ts:3-31 | the list has twelve entries, one per algorithm, in the order of the union type |
| OpenPgp.AlgorithmListIsTheUnion | services/openpgp.ts:3-45 | the list's values are distinct, RSA-2048 comes first, and every value of the `Algorithm` union appears in it |
| OpenPgp.GetAlgorithmTotalOnUnion | services/openpgp.ts:53-88 | `getAlgorithm` succeeds if and only if its argument is one of the union's twelve values |
| OpenPgp.GetAlgorithmRsa | services/openpgp.ts:61-66 | "RSA-n" asks for an RSA key of n bits and no curve |
| OpenPgp.GetAlgorithmEcc | services/openpgp.ts:67-84 | "ECC-c" asks for an ECC key on curve c, up to letter case, and no RSA size |
| OpenPgp.OpenHandler | services/openpgp.ts:105-148 | empty text reaches `readKey` as undefined and fails with the library's own error; otherwise the key is what `readKey` parses, and it keeps the text it came from |
| OpenPgp.IsDecrypted | services/openpgp.ts:164-174 | true exactly for a private key that is decrypted; a public key is never decrypted |
| OpenPgp.EncryptMessage | services/openpgp.ts:218-232 | a private key is refused with the source's message before the library is called; a public key encrypts through the library |
| OpenPgp.DecryptMessage | services/openpgp.ts:241-279 | a public key is refused with the source's message; a message that does not parse fails with the parser's error; success needs a private key and a parsed message |
| OpenPgp.PassphraseOnlyForLockedKeys | services/openpgp.ts:255-278 | a decrypted private key decrypts directly whatever the passphrase; a locked one is unlocked with the passphrase first |
| OpenPgp.GuardsIgnoreEngine | services/openpgp.ts:218-249 | the two key-kind refusals do not depend on the library at all |
| OpenPgp.GenerateOptionsFor | services/openpgp.ts:115-124 | the options carry name, email, passphrase, `Number(expire)` and the algorithm's parameters, and exist exactly when `getAlgorithm` succeeds |
| OpenPgp.GenerateKey | services/openpgp.ts:115-129 | an unsupported algorithm fails before the library is called; otherwise the library generates from those options |
| Vault.KeyPath | main.ts:154 | a key file's path is the key folder `.pgp`, a slash, then its name |
| KeyRegistry.FindIndex | main.ts:75 | the first record with the id, or -1 exactly when no record has it |
| KeyRegistry.NewRecord | main.ts:87-102 | a new private key fills the private slot, its decrypted flag and its derived public half; a new public key fills only the public slot |
| KeyRegistry.FillRecord | main.ts:76-86 | a filled slot is never replaced; a private key touches only the private slot and a public key only the public one; an empty slot is filled from the key together with its user id |
| KeyRegistry.MergeKey | main.ts:75-103 | an unseen id is appended after the unchanged records; a known id is merged in place and no other record changes; unique ids stay unique |
| KeyRegistry.Fold | main.ts:65-104 | the loop keeps ids unique and adds at most one record per key |
| KeyRegistry.Load | main.ts:65-104 | the loop keeps ids unique and reports no error exactly when every key file parses |
| KeyRegistry.LoadIsFoldOfParsedPrefix | main.ts:65-68 | loading is the merge of the keys of the longest prefix that parses, and a failure reports the first bad file's error |
| KeyRegistry.MergeCovered | main.ts:76-86 | merging a key whose slot is already filled changes nothing |
| KeyRegistry.MergeKeepsCover | main.ts:75-103 | a merge never empties a filled slot or moves an id |
| KeyRegistry.MergeCovers | main.ts:75-103 | after a merge the key's slot is filled |
| KeyRegistry.FoldCovers | main.ts:65-104 | after the loop every merged key's slot is filled |
| KeyRegistry.FoldKeepsCover | main.ts:65-104 | the loop never empties a filled slot |
| KeyRegistry.FoldOfCovered | main.ts:65-104 | merging only keys whose slots are filled changes nothing |
| KeyRegistry.FoldIdempotent | main.ts:65-104 | loading the same key files a second time leaves the registry as it is |
| KeyRegistry.MergeIds | main.ts:75-103 | a merge adds exactly the key's id to the set of ids |
| KeyRegistry.FoldIds | main.ts:65-104 | the registry's ids after the loop are the starting ids plus the merged keys' ids |
| KeyRegistry.PrivateThenPublic | main.ts:83-95 | private then public key of one new id: one record whose public slot holds the half derived from the private key |
| KeyRegistry.PublicThenPrivate | main.ts:77-101 | public then private key of one new id: one record whose public slot holds the public key file, user id from the private key |
| KeyRegistry.SavedKeyFileName | main.ts:150-152 | the saved file is named after the key id, a double underscore, `private` or `public`, and `.asc` |
| KeyRegistry.SaveKeys | main.ts:132-181 | the first text is written, named by the kind it parses as; the second is written only when it parses as private, otherwise the source's error notice is shown; an unparsable first text writes nothing |
| KeyRegistry.TimestampFields | main.ts:184-192 | the timestamp's fields sit at fixed places after the year and read back as the clock's year, month (one-based), day, hours, minutes and seconds |
| KeyRegistry.NewNotePathParts | main.ts:192-196 | the new note's path is the folder (or nothing), a slash, the timestamp and `.pgp` |
| NoteView.Initial | views/pgp/index.ts:32-38 | a fresh view is on the new-note screen with empty clear text, no recipient and no actions |
| NoteView.RenderEditing | views/pgp/editingView.ts:13-27 | the editing screen adds "lock_note" and one Lock button only when the tag is missing, and shows the clear text in the editor |
| NoteView.SetView | views/pgp/index.ts:82-103 | the screen becomes the requested one; data, clear text and recipient are unchanged; the lock pairing is kept |
| NoteView.SetViewData | views/pgp/index.ts:110-129 | clear empty data shows the new-note screen, clear non-empty data the locked screen, other data detaches the view untouched |
| NoteView.Open | views/pgp/index.ts:110-121 | opening a file keeps its contents as the data and picks the screen from whether it is empty |
| NoteView.Copy | views/pgp/index.ts:49-53 | the clipboard receives the ciphertext and "copy" is recorded |
| NoteView.WithoutLock | views/pgp/index.ts:181 | no "lock_note" tag is left |
| NoteView.WithoutLockKeepsOthers | views/pgp/index.ts:181 | every other tag keeps its count, and the list shrinks by the number of "lock_note" tags |
| NoteView.WithoutLockAppend | views/pgp/index.ts:181 | the filter distributes over concatenation, drops a lone "lock_note" and keeps any other lone tag, so the kept tags stay in order |
| NoteView.LockNote | views/pgp/index.ts:176-182 | the clear text is forgotten and the locked screen is shown; ciphertext and recipient are kept; the lock tag and one Lock button are removed |
| NoteView.EncryptAndSave | views/pgp/index.ts:195-210 | a save replaces the data by the ciphertext of the clear text under the recipient's public key; any failure leaves the view unchanged and shows a notice |
| NoteView.EncryptAndSaveSucceedsIff | views/pgp/index.ts:195-210 | saving succeeds if and only if a recipient is set, parses as a public key and the library encrypts |
| NoteView.Input | views/pgp/editingView.ts:32-35 | typing makes the editor's text the clear text and, when the save succeeds, the file contents its ciphertext; a failed save keeps the old ciphertext |
| NoteView.OperationsKeepLockInvariant | views/pgp/editingView.ts:13-17 | every operation of the note view keeps the "lock_note" tag paired one-to-one with the Lock button, so there is never more than one |
| NoteView.RenderTwice | views/pgp/editingView.ts:13-17 | rendering the editing screen twice is rendering it once |
| DecryptView.Candidates | views/pgp/decryptView.ts:14-16 | the offered records are exactly those with a truthy private slot |
| DecryptView.CandidatesAppend | views/pgp/decryptView.ts:14-16 | the filter distributes over concatenation, so it keeps the registry's order |
| DecryptView.PrivateKeyOptions | views/pgp/decryptView.ts:66-86 | the placeholder with the empty value, then one option per candidate, valued by its private key and captioned with user id and formatted id |
| DecryptView.NoticeAndCandidates | views/pgp/decryptView.ts:68-86 | the "No private keys found" notice implies no candidates; no candidates without the notice means some record's private slot holds `""` |
| DecryptView.PassphraseArgument | views/pgp/decryptView.ts:43 | an empty passphrase field passes no passphrase; otherwise the field is passed as typed |
| DecryptView.Unlock | views/pgp/decryptView.ts:26-56 | any failure leaves the view unchanged with a notice, and a public key is refused with the source's message; success shows the editing screen with the decrypted text and keeps the key's public half as the recipient for later saves |
| DecryptView.UnlockSucceedsIff | views/pgp/decryptView.ts:33-49 | unlocking succeeds if and only if the selected key parses as private and decrypts the note |
| DecryptView.UploadKeyFile | views/pgp/decryptView.ts:104-138 | a private key with an id is appended as an option, valued by the file, captioned by its id and selected, with "Private key added"; a private key without an id is ignored silently; a public key is refused and a parse failure shows the library's error, both leaving the drop-down as it was |
| DecryptView.UploadAddsIff | views/pgp/decryptView.ts:104-138 | the drop-down changes if and only if the file holds a private key with an id; it then grows by exactly one option, the selected file, after the old ones |
| NewNoteView.RecipientOptions | views/pgp/newNoteView.ts:64-78 | one option per record in order, valued by its id and captioned "user id (formatted id)" |
| NewNoteView.OptionsAreFound | views/pgp/newNoteView.ts:29-31 | with unique ids, the id of the i-th option is found at index i |
| NewNoteView.RenamePath | views/pgp/newNoteView.ts:42-43 | the new path is the parent folder (or nothing), a slash, the file name and `.pgp` |
| NewNoteView.ChooseRecipient | views/pgp/newNoteView.ts:21-52 | an unknown id changes nothing; a known one empties the clear text, binds the record's public key, renames the file and, if the rename succeeds, shows the editing screen |
| NewNoteView.EditingEvenIfEncryptionFails | views/pgp/newNoteView.ts:34-47 | a failed encryption is swallowed: after a successful rename the note still reaches the editing screen, with the old file contents |
| CreateKey.DefaultForm | setting/createKey.ts:18-25 | the form starts on the first algorithm of the list (which `getAlgorithm` accepts), with no passphrase, empty name and email, lifetime "0" and saving off |
| CreateKey.ExpiryOptionSeconds | setting/createKey.ts:67-77 | seven lifetimes, the default first, each value read by `Number` as never, a year, half, a quarter and a twelfth of a year, a week and a day in seconds |
| CreateKey.SaveArguments | setting/createKey.ts:114-117 | the public key is always saved; the private key is passed exactly when saving is on |
| CreateKey.Create | setting/createKey.ts:96-138 | missing name or email fails before generation with the source's notice; a download happens if and only if name and email are filled in and generation and parsing succeed; it is named `<id>_private.asc`, holds the private key and comes with the writes of `saveKeys` |
| CreateKey.SaveToggle | setting/createKey.ts:114-117 | with saving off at most one key file is written; two are written exactly when saving is on and both halves parse, the second as private |
| UploadKey.PickKeyFile | setting/modals/uploadPrivatekey.ts:91-98 | in both modals, a file over 10000 characters is refused with "The file is too large" and the text area kept; otherwise it is copied verbatim |
| UploadKey.SubmitPrivateKey | setting/modals/uploadPrivatekey.ts:22-57 | a write happens exactly for text that parses as a private key, to `.pgp/<id>_secret.asc` verbatim; the modal closes and the settings redraw only if the write succeeds |
| UploadKey.SubmitPublicKey | setting/modals/uploadPublickey.ts:17-50 | a write happens exactly for text that parses as a public key, to `.pgp/<id>_public.asc` verbatim; the modal closes only if the write succeeds |
| UploadKey.ModalsAreComplementary | setting/modals/uploadPublickey.ts:26-32 | no text is accepted by both modals, and every parsable key is accepted by one of them |
| Lifecycle.EditLockUnlock | views/pgp/decryptView.ts:33-49 | text typed and saved, then locked, is recovered exactly on the editing screen by unlocking with the matching private key |
| Lifecycle.NewNoteToEditing | views/pgp/newNoteView.ts:34-47 | an empty file bound to a registered recipient ends on the editing screen, empty, with that public key and exactly one Lock button |
| Lifecycle.PublicKeyKeepsNoteLocked | views/pgp/decryptView.ts:37-39 | a non-empty note opens locked, and a key that is not private leaves it locked and unchanged |
| Lifecycle.HandlersKeepLockInvariant | views/pgp/decryptView.ts:33-49 | the unlock form's submit and the recipient choice (views/pgp/newNoteView.ts:21-52), which both lead to the editing screen, keep the "lock_note" tag paired one-to-one with the Lock button |
| Lifecycle.LastInputWins | views/pgp/editingView.ts:32-35 | after two edits the file holds the encryption of the second text alone, or the first ciphertext if the second save failed |

## Left out

- The OpenPGP library itself is not modelled: parsing, key generation, encryption and decryption are the `Engine` parameter. Properties that need the library to be correct carry that as a precondition (`Lifecycle.Inverse`).
- Asynchronous interleaving is not modelled. Every handler runs to completion in one step, so two overlapping `encryptAndSave` calls cannot race.
- The writes in `saveKeys` (main.ts:156, 174) are not awaited. A failed write can therefore escape its `catch`. The model treats every issued write as done.
- The DOM, the Obsidian widgets, headers, icons and focus are not modelled. The clipboard and the browser download are results, not effects.
- The document-wide `querySelector` in `lockNote` is not modelled. The model removes this view's Lock button, which is the same button when only one note view is open.
- Folder creation in `saveKeys` is not modelled.
- The settings-file half of `loadSettings` (main.ts:106-124) is not modelled.
- The folder listing in `loadSettings` is not modelled. `Load` takes the files' texts in listing order.
- The rename, delete and create calls to the vault appear only through the answer they give, or as the path they are called with.
- Obsidian's own storing of the file contents in `data` before `setViewData` is not modelled there; `NoteView.Open` performs that assignment.
- `GetViewData` states nothing beyond returning the data: it is the host's read of the file contents.
- Text.Upper: `toUpperCase` is modelled on ASCII letters only. Key ids are hexadecimal, so nothing else reaches it.
- Text.NumberOf: `Number` is modelled on the empty string and on strings of decimal digits only. Every other string counts as NaN, including signs, spaces, decimals and exponents. The values that reach it are the lifetime options.
- Lengths are counted in Dafny characters, not UTF-16 code units. This matters for characters outside the Basic Multilingual Plane in two places. `PickKeyFile`'s 10000-character limit counts each as two units. In `formatKeyId`, `/.{1,4}/g` has no `u` flag, so `.` matches one code unit: such a character counts as two and can be split across groups, while `FormatKeyId.Groups`, `FormatKeyId.GroupsOfClean` and `FormatKeyId.FormatLength` count it as one. Hexadecimal key ids never contain such characters.
- MemoryStorage: two JavaScript behaviours of the plain object and the number type in services/storage.ts are not modelled. A key named `__proto__` sets the object's prototype instead of creating an entry, so `Object.keys` never lists it; the model's map stores it like any other key. `expirationTime` is a number: a fractional duration gives a fractional expiration, and NaN is falsy and stores no expiration; the model takes an optional integer.
- MemoryStorage.AllKeys: the order `Object.keys` gives is not modelled. Only the set of keys, each once, is stated.
- The clock is the `now` parameter of the store and the `LocalTime` of `createPGPNote`. The time zone is not modelled.
- `setting.hide()` and `setting.display()` after a key is created are not modelled, and neither is the settings list they redraw. The upload modals report the redraw as a flag.
- `readPrivateKey` inside `isDecrypted` and `decryptMessage` is assumed to read the same key `readKey` did. The engine reports the decrypted flag with the parsed key.
- A key file that does not parse stops loading: `readKey`'s error leaves the loop in `loadSettings` (main.ts:65-104). The records merged so far are kept (`KeyRegistry.LoadIsFoldOfParsedPrefix`). The error also rejects `loadSettings` and so `onload` (main.ts:25-56): the settings tab, the `.pgp` view and extension, the ribbon icon and the file-menu item are never registered, so one unparsable file in `.pgp` disables the plugin. The model stops at the registry.
- The order of the key files changes the merged public slot (`KeyRegistry.PrivateThenPublic`, `KeyRegistry.PublicThenPrivate`).
- The file names `saveKeys` writes are modelled as the code builds them: `<id>__private.asc` and `<id>__public.asc`, with a double underscore.

=== FILE: create_key.dfy ===
/** The "Create a key" form of the settings (setting/createKey.ts): its
    defaults, the lifetime options, the required fields, and what the Create
    button generates, saves and downloads. */
module CreateKey {
  import opened Wrappers
  import opened Text
  import opened Vault
  import OpenPgp
  import KeyRegistry

  datatype Form = Form(
    algorithm: string,
    passphrase: Option<string>,  // null until the field is typed in
    email: string,
    name: string,
    expire: string,              // lifetime in seconds, as the drop-down value
    save: bool)                  // keep the private key in the vault

  function DefaultForm(): (f: Form)
    ensures f.algorithm == OpenPgp.AlgorithmList()[0].value == OpenPgp.Token(OpenPgp.Rsa2048)
    ensures f.passphrase.None? && f.email == "" && f.name == "" && f.expire == "0" && !f.save
    ensures OpenPgp.GetAlgorithm(f.algorithm).Success?
  {
    Form(OpenPgp.AlgorithmList()[0].value, None, "", "", "0", false)
  }

  datatype ExpiryOption = ExpiryOption(value: string, caption: string)

  /** The lifetime drop-down, in its order. */
  function ExpiryOptions(): seq<ExpiryOption> {
    [ ExpiryOption("0", "Never"),
      ExpiryOption("31536000", "1 year"),
      ExpiryOption("15768000", "6 months"),
      ExpiryOption("7884000", "3 months"),
      ExpiryOption("2628000", "1 month"),
      ExpiryOption("604800", "1 week"),
      ExpiryOption("86400", "1 day") ]
  }

  const Day: nat := 24 * 60 * 60
  const Year: nat := 365 * Day

  /** Appending a digit to a positive number's decimal text. */
  lemma DecimalSnoc(n: nat, s: string, d: nat, c: char) returns (n': nat, s': string)
    requires 0 < n && d < 10 && Decimal(n) == s && c == '0' + d as char
    ensures n' == 10 * n + d && s' == s + [c] && Decimal(n') == s'
  {
    n', s' := 10 * n + d, s + [c];
    assert n' / 10 == n && n' % 10 == d;
  }

  /** The value of option `i` read as `Number(expire)`: never, a year, half,
      a quarter and a twelfth of it, a week, a day. */
  function ExpirySeconds(i: nat): nat
    requires i < 7
  {
    [0, Year, Year / 2, Year / 4, Year / 12, 7 * Day, Day][i]
  }

  lemma ExpiryOptionNever()
    ensures NumberOf(ExpiryOptions()[0].value) == Some(ExpirySeconds(0))
  {
    assert Decimal(0) == "0";
    assert ExpiryOptions()[0].value == Decimal(0);
    assert ExpirySeconds(0) == 0;
    NumberOfDecimal(0);
  }

  lemma ExpiryOptionYear()
    ensures NumberOf(ExpiryOptions()[1].value) == Some(ExpirySeconds(1))
  {
    var n: nat, s: string := 3, "3";
    assert Decimal(n) == s;
    n, s := DecimalSnoc(n, s, 1, '1');
    n, s := DecimalSnoc(n, s, 5, '5');
    n, s := DecimalSnoc(n, s, 3, '3');
    n, s := DecimalSnoc(n, s, 6, '6');
    n, s := DecimalSnoc(n, s, 0, '0');
    n, s := DecimalSnoc(n, s, 0, '0');
    n, s := DecimalSnoc(n, s, 0, '0');
    assert s == ExpiryOptions()[1].value;
    assert n == ExpirySeconds(1);
    NumberOfDecimal(n);
  }

  lemma ExpiryOptionHalfYear()
    ensures NumberOf(ExpiryOptions()[2].value) == Some(ExpirySeconds(2))
  {
    var n: nat, s: string := 1, "1";
    assert Decimal(n) == s;
    n, s := DecimalSnoc(n, s, 5, '5');
    n, s := DecimalSnoc(n, s, 7, '7');
    n, s := DecimalSnoc(n, s, 6, '6');
    n, s := DecimalSnoc(n, s, 8, '8');
    n, s := DecimalSnoc(n, s, 0, '0');
    n, s := DecimalSnoc(n, s, 0, '0');
    n, s := DecimalSnoc(n, s, 0, '0');
    assert s == ExpiryOptions()[2].value;
    assert n == ExpirySeconds(2);
    NumberOfDecimal(n);
  }

  lemma ExpiryOptionQuarterYear()
    ensures NumberOf(ExpiryOptions()[3].value) == Some(ExpirySeconds(3))
  {
    var n: nat, s: string := 7, "7";
    assert Decimal(n) == s;
    n, s := DecimalSnoc(n, s, 8, '8');
    n, s := DecimalSnoc(n, s, 8, '8');
    n, s := DecimalSnoc(n, s, 4, '4');
    n, s := DecimalSnoc(n, s, 0, '0');
    n, s := DecimalSnoc(n, s, 0, '0');
    n, s := DecimalSnoc(n, s, 0, '0');
    assert s == ExpiryOptions()[3].value;
    assert n == ExpirySeconds(3);
    NumberOfDecimal(n);
  }

  lemma ExpiryOptionMonth()
    ensures NumberOf(ExpiryOptions()[4].value) == Some(ExpirySeconds(4))
  {
    var n: nat, s: string := 2, "2";
    assert Decimal(n) == s;
    n, s := DecimalSnoc(n, s, 6, '6');
    n, s := DecimalSnoc(n, s, 2, '2');
    n, s := DecimalSnoc(n, s, 8, '8');
    n, s := DecimalSnoc(n, s, 0, '0');
    n, s := DecimalSnoc(n, s, 0, '0');
    n, s := DecimalSnoc(n, s, 0, '0');
    assert s == ExpiryOptions()[4].value;
    assert n == ExpirySeconds(4);
    NumberOfDecimal(n);
  }

  lemma ExpiryOptionWeek()
    ensures NumberOf(ExpiryOptions()[5].value) == Some(ExpirySeconds(5))
  {
    var n: nat, s: string := 6, "6";
    assert Decimal(n) == s;
    n, s := DecimalSnoc(n, s, 0, '0');
    n, s := DecimalSnoc(n, s, 4, '4');
    n, s := DecimalSnoc(n, s, 8, '8');
    n, s := DecimalSnoc(n, s, 0, '0');
    n, s := DecimalSnoc(n, s, 0, '0');
    assert s == ExpiryOptions()[5].value;
    assert n == ExpirySeconds(5);
    NumberOfDecimal(n);
  }

  lemma ExpiryOptionDay()
    ensures NumberOf(ExpiryOptions()[6].value) == Some(ExpirySeconds(6))
  {
    var n: nat, s: string := 8, "8";
    assert Decimal(n) == s;
    n, s := DecimalSnoc(n, s, 6, '6');
    n, s := DecimalSnoc(n, s, 4, '4');
    n, s := DecimalSnoc(n, s, 0, '0');
    n, s := DecimalSnoc(n, s, 0, '0');
    assert s == ExpiryOptions()[6].value;
    assert n == ExpirySeconds(6);
    NumberOfDecimal(n);
  }
  /** Every option's value reads (as `Number(expire)`) as the lifetime its
      caption names, and the default "0" is the first option. */
  lemma ExpiryOptionSeconds()
    ensures |ExpiryOptions()| == 7
    ensures ExpiryOptions()[0].value == DefaultForm().expire
    ensures forall i :: 0 <= i < 7 ==> NumberOf(ExpiryOptions()[i].value) == Some(ExpirySeconds(i))
  {
    ExpiryOptionNever();
    ExpiryOptionYear();
    ExpiryOptionHalfYear();
    ExpiryOptionQuarterYear();
    ExpiryOptionMonth();
    ExpiryOptionWeek();
    ExpiryOptionDay();
  }

  /** The arguments of `saveKeys`: the public key always, the private key
      exactly when "save" is on. */
  datatype SaveArgs = SaveArgs(publicKey: string, privateKey: Option<string>)

  function SaveArguments(form: Form, pair: OpenPgp.KeyPair): (a: SaveArgs)
    ensures a.publicKey == pair.publicKey
    ensures a.privateKey.Some? <==> form.save
    ensures a.privateKey.Some? ==> a.privateKey.value == pair.privateKey
  {
    SaveArgs(pair.publicKey, if form.save then Some(pair.privateKey) else None)
  }

  const MissingNameOrEmail: string := "Please fill in your name and email address."

  /** A file handed to the browser as a download. */
  datatype Download = Download(fileName: string, content: string)

  /** What the Create button leaves: the vault writes, the download, and the
      notices shown. */
  datatype Created = Created(writes: seq<FileWrite>, download: Option<Download>, notices: seq<string>)

  function ErrorNotice(message: string): string {
    "An error occurred: " + message
  }

  /** The Create button: name and email are required; the key is generated
      from the form, the handler re-reads the private key, `saveKeys` stores
      the public key (and the private one when "save" is on) catching its own
      errors, and the private key is downloaded as `<id>_private.asc`. */
  function Create(engine: OpenPgp.Engine, form: Form): (r: Created)
    ensures form.email == "" || form.name == "" ==> r == Created([], None, [ErrorNotice(MissingNameOrEmail)])
    ensures r.download.Some? ==>
      && form.email != "" && form.name != ""
      && var pair := OpenPgp.GenerateKey(engine, form.algorithm, form.email, form.name, form.passphrase, form.expire);
      && pair.Success?
      && engine.readKey(pair.value.privateKey).Success?
      && r.download.value == Download(engine.readKey(pair.value.privateKey).value.id + "_private.asc", pair.value.privateKey)
      && var args := SaveArguments(form, pair.value);
         r.writes == KeyRegistry.SaveKeys(engine, args.publicKey, args.privateKey).writes
    ensures r.download.None? ==> r.writes == [] && |r.notices| == 1
    ensures form.email != "" && form.name != "" ==>
      var pair := OpenPgp.GenerateKey(engine, form.algorithm, form.email, form.name, form.passphrase, form.expire);
      pair.Success? && engine.readKey(pair.value.privateKey).Success? ==> r.download.Some?
  {
    if form.email == "" || form.name == "" then Created([], None, [ErrorNotice(MissingNameOrEmail)])
    else
      match OpenPgp.GenerateKey(engine, form.algorithm, form.email, form.name, form.passphrase, form.expire)
      case Failure(e) => Created([], None, [ErrorNotice(e)])
      case Success(pair) =>
        match engine.readKey(pair.privateKey)
        case Failure(e) => Created([], None, [ErrorNotice(e)])
        case Success(key) =>
          var args := SaveArguments(form, pair);
          var saved := KeyRegistry.SaveKeys(engine, args.publicKey, args.privateKey);
          Created(saved.writes, Some(Download(key.id + "_private.asc", pair.privateKey)), [saved.notice])
  }

  /** With "save" off nothing but the public key reaches the vault; with it
      on the private key is written too when it parses as private. */
  lemma SaveToggle(engine: OpenPgp.Engine, form: Form)
    requires Create(engine, form).download.Some?
    ensures var pair := OpenPgp.GenerateKey(engine, form.algorithm, form.email, form.name, form.passphrase, form.expire).value;
      && (!form.save ==> |Create(engine, form).writes| <= 1)
      && (|Create(engine, form).writes| == 2 <==>
            && form.save
            && OpenPgp.OpenHandler(engine, pair.publicKey).Success?
            && OpenPgp.OpenHandler(engine, pair.privateKey).Success?
            && OpenPgp.OpenHandler(engine, pair.privateKey).value.isPrivate)
  {
  }
}

=== FILE: decrypt_view.dfy ===
/** The locked-note screen (views/pgp/decryptView.ts): the private keys
    offered for unlocking, the unlock form's submit, and a key file added
    from disk. */
module DecryptView {
  import opened Wrappers
  import FormatKeyId
  import KeyRegistry
  import NoteView
  import OpenPgp

  /** An option of a drop-down: submitted value and label. */
  datatype Choice = Choice(value: string, caption: string)

  /** The registry records with a (non-empty) private key, in registry order. */
  function Candidates(keys: seq<KeyRegistry.KeyInfo>): (c: seq<KeyRegistry.KeyInfo>)
    ensures forall k :: k in c <==> k in keys && KeyRegistry.HasPrivate(k)
    ensures forall i :: 0 <= i < |c| ==> KeyRegistry.HasPrivate(c[i])
    ensures |c| <= |keys|
    decreases |keys|
  {
    if |keys| == 0 then []
    else if KeyRegistry.HasPrivate(keys[0]) then [keys[0]] + Candidates(keys[1..])
    else Candidates(keys[1..])
  }

  /** The candidates of a registry are those of its parts, in order: the
      filter keeps registry order. */
  lemma {:induction false} CandidatesAppend(a: seq<KeyRegistry.KeyInfo>, b: seq<KeyRegistry.KeyInfo>)
    ensures Candidates(a + b) == Candidates(a) + Candidates(b)
    decreases |a|
  {
    if |a| == 0 {
      assert a + b == b;
    } else {
      assert (a + b)[1..] == a[1..] + b;
      CandidatesAppend(a[1..], b);
    }
  }

  const SelectPlaceholder: string := "Select a private key"

  /** The private-key drop-down: a placeholder with the empty value, then one
      option per candidate, valued by its armored private key and labelled
      with its user id and formatted key id. */
  function PrivateKeyOptions(keys: seq<KeyRegistry.KeyInfo>): (r: seq<Choice>)
    ensures |r| == |Candidates(keys)| + 1
    ensures r[0] == Choice("", SelectPlaceholder)
    ensures forall i :: 0 <= i < |Candidates(keys)| ==>
      var k := Candidates(keys)[i];
      r[i + 1] == Choice(k.armoredPrivateKey.value, k.userId + " " + FormatKeyId.Format(k.id))
    ensures forall i :: 1 <= i < |r| ==> r[i].value != ""
  {
    var c := Candidates(keys);
    [Choice("", SelectPlaceholder)] + seq(|c|, i requires 0 <= i < |c| => OptionFor(c[i]))
  }

  function OptionFor(k: KeyRegistry.KeyInfo): Choice
    requires KeyRegistry.HasPrivate(k)
  {
    Choice(k.armoredPrivateKey.value, k.userId + " " + FormatKeyId.Format(k.id))
  }

  /** The "No private keys found" notice: shown when no record has a private
      slot at all. Its test differs from the candidates' truthiness test: a
      record whose private slot is the empty string counts here but is not
      offered. */
  predicate NoPrivateKeysNotice(keys: seq<KeyRegistry.KeyInfo>) {
    forall i :: 0 <= i < |keys| ==> keys[i].armoredPrivateKey.None?
  }

  /** When the notice shows there are no candidates; when there are no
      candidates and no notice, some record has an empty private slot. */
  lemma NoticeAndCandidates(keys: seq<KeyRegistry.KeyInfo>)
    ensures NoPrivateKeysNotice(keys) ==> Candidates(keys) == []
    ensures Candidates(keys) == [] && !NoPrivateKeysNotice(keys) ==>
      exists i :: 0 <= i < |keys| && keys[i].armoredPrivateKey == Some("")
  {
    var c := Candidates(keys);
    if c == [] && !NoPrivateKeysNotice(keys) {
      var i :| 0 <= i < |keys| && keys[i].armoredPrivateKey.Some?;
      assert keys[i] !in c;
    }
  }

  /** An empty passphrase field reaches decryption as undefined. */
  function PassphraseArgument(field: string): (p: Option<string>)
    ensures p.None? <==> field == ""
    ensures p.Some? ==> p.value == field
  {
    if field == "" then None else Some(field)
  }

  const NotPrivateKey: string := "The key is not a private key"

  datatype Submitted = Submitted(view: NoteView.View, notice: Option<string>)

  /** The unlock form's submit: parse the selected key, refuse a key that is
      not private, decrypt the note with it; only a successful decryption
      changes the view, which then holds the plain text, keeps the key's
      public half as the recipient for later saves, and shows the editing
      screen in source mode. */
  function Unlock(engine: OpenPgp.Engine, v: NoteView.View, selected: string, passphrase: string): (r: Submitted)
    ensures r.notice.Some? ==> r.view == v
    ensures OpenPgp.OpenHandler(engine, selected).Success? && !OpenPgp.OpenHandler(engine, selected).value.isPrivate ==>
      r == Submitted(v, Some(NotPrivateKey))
    ensures r.notice.None? ==>
      && OpenPgp.OpenHandler(engine, selected).Success?
      && var key := OpenPgp.OpenHandler(engine, selected).value;
      && key.isPrivate
      && var plain := OpenPgp.DecryptMessage(engine, key, v.data, PassphraseArgument(passphrase));
      && plain.Success?
      && r.view.clearText == plain.value
      && r.view.publicKey == Some(key.publicHalf)
      && r.view.viewMode == NoteView.Source
      && r.view.viewType == NoteView.EditNote
      && r.view.data == v.data
      && r.view.editorText == plain.value
  {
    match OpenPgp.OpenHandler(engine, selected)
    case Failure(e) => Submitted(v, Some(e))
    case Success(key) =>
      if !key.isPrivate then Submitted(v, Some(NotPrivateKey))
      else
        match OpenPgp.DecryptMessage(engine, key, v.data, PassphraseArgument(passphrase))
        case Failure(e) => Submitted(v, Some(e))
        case Success(plain) =>
          var unlocked := v.(publicKey := Some(key.publicHalf), clearText := plain, viewMode := NoteView.Source);
          Submitted(NoteView.SetView(unlocked, NoteView.EditNote), None)
  }

  /** Unlocking succeeds exactly when the selected key parses as a private key
      and decrypts the note. */
  lemma UnlockSucceedsIff(engine: OpenPgp.Engine, v: NoteView.View, selected: string, passphrase: string)
    ensures Unlock(engine, v, selected, passphrase).notice.None? <==>
      && OpenPgp.OpenHandler(engine, selected).Success?
      && OpenPgp.OpenHandler(engine, selected).value.isPrivate
      && OpenPgp.DecryptMessage(engine, OpenPgp.OpenHandler(engine, selected).value, v.data, PassphraseArgument(passphrase)).Success?
  {
  }

  /** The private-key drop-down as the form holds it. */
  datatype Dropdown = Dropdown(options: seq<Choice>, selected: string)

  datatype Uploaded = Uploaded(dropdown: Dropdown, notice: Option<string>)

  const PrivateKeyAdded: string := "Private key added"

  /** A key file picked from disk: a private key with a non-empty id becomes a
      new, selected option labelled with its id; a private key without an id
      is silently ignored; anything else shows the error and leaves the
      drop-down as it was. */
  function UploadKeyFile(engine: OpenPgp.Engine, d: Dropdown, text: string): (r: Uploaded)
    ensures var h := OpenPgp.OpenHandler(engine, text);
      h.Failure? ==> r == Uploaded(d, Some(h.error))
    ensures var h := OpenPgp.OpenHandler(engine, text);
      h.Success? && !h.value.isPrivate ==> r == Uploaded(d, Some(NotPrivateKey))
    ensures var h := OpenPgp.OpenHandler(engine, text);
      h.Success? && h.value.isPrivate && h.value.id == "" ==> r == Uploaded(d, None)
    ensures var h := OpenPgp.OpenHandler(engine, text);
      h.Success? && h.value.isPrivate && h.value.id != "" ==>
        r == Uploaded(Dropdown(d.options + [Choice(text, h.value.id)], text), Some(PrivateKeyAdded))
  {
    match OpenPgp.OpenHandler(engine, text)
    case Failure(e) => Uploaded(d, Some(e))
    case Success(key) =>
      if !key.isPrivate then Uploaded(d, Some(NotPrivateKey))
      else if key.id == "" then Uploaded(d, None)
      else Uploaded(Dropdown(d.options + [Choice(text, key.id)], text), Some(PrivateKeyAdded))
  }

  /** The drop-down grows exactly when the file holds a private key with an
      id, and then by one option, valued by the file and selected; every
      earlier option stays where it was. */
  lemma {:induction false} UploadAddsIff(engine: OpenPgp.Engine, d: Dropdown, text: string)
    ensures UploadKeyFile(engine, d, text).dropdown != d <==>
      && OpenPgp.OpenHandler(engine, text).Success?
      && OpenPgp.OpenHandler(engine, text).value.isPrivate
      && OpenPgp.OpenHandler(engine, text).value.id != ""
    ensures var r := UploadKeyFile(engine, d, text).dropdown;
      r != d ==>
        && |r.options| == |d.options| + 1
        && r.options[..|d.options|] == d.options
        && r.options[|d.options|].value == r.selected == text
  {
    var h := OpenPgp.OpenHandler(engine, text);
    if h.Success? && h.value.isPrivate && h.value.id != "" {
      var r := UploadKeyFile(engine, d, text).dropdown;
      assert |r.options| == |d.options| + 1;
    }
  }
}

=== FILE: format_key_id.dfy ===
/** `formatKeyId` (utils/formatKeyId.ts): split a key id into the matches of
    the global regular expression `/.{1,4}/g`, join them with single spaces and
    upper-case the result; "Invalid" when there is no match at all. */
module FormatKeyId {
  import opened Text

  const InvalidId: string := "Invalid"

  /** Characters the regular-expression `.` does not match. */
  predicate IsLineTerminator(c: char) {
    c == '\n' || c == '\r' || c == '\U{2028}' || c == '\U{2029}'
  }

  predicate NoLineTerminator(s: string) {
    forall i :: 0 <= i < |s| ==> !IsLineTerminator(s[i])
  }

  /** Length of the greedy match of `.{1,max}` at the start of `s` (0 when
      `s` is empty or starts with a line terminator). */
  function LeadingRun(s: string, max: nat): (k: nat)
    ensures k <= max && k <= |s|
    ensures NoLineTerminator(s[..k])
    ensures k < max && k < |s| ==> IsLineTerminator(s[k])
    decreases max
  {
    if max == 0 || |s| == 0 || IsLineTerminator(s[0]) then 0
    else 1 + LeadingRun(s[1..], max - 1)
  }

  /** The matches of `/.{1,4}/g`, scanning left to right: a line terminator
      is skipped, otherwise the greedy match is taken and the scan resumes
      after it. */
  function Groups(s: string): (gs: seq<string>)
    ensures forall i :: 0 <= i < |gs| ==> 1 <= |gs[i]| <= 4 && NoLineTerminator(gs[i])
    decreases |s|
  {
    if |s| == 0 then []
    else if IsLineTerminator(s[0]) then Groups(s[1..])
    else
      var k := LeadingRun(s, 4);
      [s[..k]] + Groups(s[k..])
  }

  function Format(keyId: string): (r: string)
    ensures Groups(keyId) == [] ==> r == InvalidId
    ensures Groups(keyId) != [] ==> forall i :: 0 <= i < |r| ==> !IsLower(r[i])
  {
    var groups := Groups(keyId);
    if groups == [] then InvalidId else Upper(Join(groups, " "))
  }

  /** The characters of `s` the regular-expression `.` matches, in order. */
  function Visible(s: string): (v: string)
    ensures NoLineTerminator(v)
  {
    if |s| == 0 then ""
    else if IsLineTerminator(s[0]) then Visible(s[1..])
    else [s[0]] + Visible(s[1..])
  }

  lemma {:induction false} VisibleOfClean(s: string)
    requires NoLineTerminator(s)
    ensures Visible(s) == s
    decreases |s|
  {
    if |s| > 0 {
      VisibleOfClean(s[1..]);
    }
  }

  lemma {:induction false} VisibleAppend(a: string, b: string)
    ensures Visible(a + b) == Visible(a) + Visible(b)
    decreases |a|
  {
    if |a| == 0 {
      assert a + b == b;
    } else {
      assert (a + b)[1..] == a[1..] + b;
      VisibleAppend(a[1..], b);
    }
  }

  /** The matches, written one after another, are exactly the matchable
      characters of the input: no character is lost or repeated. */
  lemma {:induction false} GroupsCoverVisible(s: string)
    ensures Concat(Groups(s)) == Visible(s)
    decreases |s|
  {
    if |s| > 0 {
      if IsLineTerminator(s[0]) {
        GroupsCoverVisible(s[1..]);
      } else {
        var k := LeadingRun(s, 4);
        GroupsCoverVisible(s[k..]);
        assert s == s[..k] + s[k..];
        VisibleAppend(s[..k], s[k..]);
        VisibleOfClean(s[..k]);
        assert Groups(s) == [s[..k]] + Groups(s[k..]);
        assert ([s[..k]] + Groups(s[k..]))[1..] == Groups(s[k..]);
      }
    }
  }

  /** There is no match exactly when every character is a line terminator
      (in particular for the empty id). */
  lemma {:induction false} GroupsEmptyIff(s: string)
    ensures Groups(s) == [] <==> forall i :: 0 <= i < |s| ==> IsLineTerminator(s[i])
    decreases |s|
  {
    if |s| > 0 {
      GroupsEmptyIff(s[1..]);
      if IsLineTerminator(s[0]) {
        assert forall i :: 1 <= i < |s| ==> s[i] == s[1..][i - 1];
      }
    }
  }

  /** "Invalid" comes out exactly for the ids without any matchable
      character; the empty id is one of them. */
  lemma FormatInvalidIff(keyId: string)
    ensures Format(keyId) == InvalidId <==> forall i :: 0 <= i < |keyId| ==> IsLineTerminator(keyId[i])
    ensures Format("") == InvalidId
  {
    GroupsEmptyIff(keyId);
    assert IsLower(InvalidId[1]);
  }

  /** For an id without line terminators the groups are blocks of exactly
      four characters, except the last, which holds the 1 to 4 remaining ones. */
  lemma {:induction false} GroupsOfClean(s: string)
    requires NoLineTerminator(s)
    ensures |Groups(s)| == (|s| + 3) / 4
    ensures forall i :: 0 <= i < |Groups(s)| - 1 ==> |Groups(s)[i]| == 4
    ensures Sum(Groups(s)) == |s|
    decreases |s|
  {
    if |s| > 0 {
      var k := LeadingRun(s, 4);
      assert k == if 4 <= |s| then 4 else |s|;
      var rest := s[k..];
      assert NoLineTerminator(rest) by {
        assert forall j :: 0 <= j < |rest| ==> rest[j] == s[k + j];
      }
      GroupsOfClean(rest);
      var gs := Groups(s);
      assert gs == [s[..k]] + Groups(rest);
      assert gs[1..] == Groups(rest);
      assert forall i :: 1 <= i < |gs| ==> gs[i] == Groups(rest)[i - 1];
      assert Sum(gs) == |gs[0]| + Sum(gs[1..]);
    }
  }

  /** A formatted id of n > 0 characters without line terminators has n
      characters plus one space between consecutive blocks of four. */
  lemma FormatLength(keyId: string)
    requires |keyId| > 0 && NoLineTerminator(keyId)
    ensures |Format(keyId)| == |keyId| + (|keyId| + 3) / 4 - 1
  {
    GroupsOfClean(keyId);
    JoinLength(Groups(keyId));
  }

  /** Removing the spaces of a valid formatted id gives the upper-cased
      matchable characters of the id with their own spaces removed. */
  lemma FormatRemoveSpaces(keyId: string)
    requires Format(keyId) != InvalidId
    ensures RemoveSpaces(Format(keyId)) == Upper(RemoveSpaces(Visible(keyId)))
  {
    var gs := Groups(keyId);
    RemoveSpacesUpper(Join(gs, " "));
    RemoveSpacesJoin(gs);
    GroupsCoverVisible(keyId);
  }

  /** For a hexadecimal key id (no spaces, no line terminators) removing the
      spaces of the formatted id gives back the upper-cased id. */
  lemma FormatHexId(keyId: string)
    requires |keyId| > 0
    requires forall i :: 0 <= i < |keyId| ==> IsDigit(keyId[i]) || 'a' <= keyId[i] <= 'f' || 'A' <= keyId[i] <= 'F'
    ensures Format(keyId) != InvalidId
    ensures RemoveSpaces(Format(keyId)) == Upper(keyId)
  {
    FormatInvalidIff(keyId);
    assert !IsLineTerminator(keyId[0]);
    FormatRemoveSpaces(keyId);
    VisibleOfClean(keyId);
    RemoveSpacesOfSpaceless(keyId);
  }

  lemma {:induction false} RemoveSpacesOfSpaceless(s: string)
    requires forall i :: 0 <= i < |s| ==> s[i] != ' '
    ensures RemoveSpaces(s) == s
    decreases |s|
  {
    if |s| > 0 {
      RemoveSpacesOfSpaceless(s[1..]);
    }
  }
}

=== FILE: key_registry.dfy ===
/** The key registry of the plugin (main.ts): the fold in `loadSettings` that
    turns the key files found under `.pgp` into `KeyInfo` records, `saveKeys`,
    and the file name `createPGPNote` gives a new note. */
module KeyRegistry {
  import opened Wrappers
  import opened Text
  import opened Vault
  import OpenPgp

  /** `KeyInfo`: one key id with its public and, when known, private half. */
  datatype KeyInfo = KeyInfo(
    id: string,
    userId: string,
    armoredPublicKey: string,
    armoredPrivateKey: Option<string>,
    isDecrypted: Option<bool>)

  /** JavaScript truthiness of the optional private slot. */
  predicate HasPrivate(k: KeyInfo) {
    k.armoredPrivateKey.Some? && k.armoredPrivateKey.value != ""
  }

  /** JavaScript truthiness of the public slot. */
  predicate HasPublic(k: KeyInfo) {
    k.armoredPublicKey != ""
  }

  predicate UniqueIds(keys: seq<KeyInfo>) {
    forall i, j :: 0 <= i < j < |keys| ==> keys[i].id != keys[j].id
  }

  /** `keys.findIndex(key => key.id === id)`. */
  function FindIndex(keys: seq<KeyInfo>, id: string): (r: int)
    ensures -1 <= r < |keys|
    ensures r == -1 <==> forall j :: 0 <= j < |keys| ==> keys[j].id != id
    ensures r >= 0 ==> keys[r].id == id && forall j :: 0 <= j < r ==> keys[j].id != id
  {
    if |keys| == 0 then -1
    else if keys[0].id == id then 0
    else
      var r := FindIndex(keys[1..], id);
      if r == -1 then -1 else r + 1
  }

  /** The record a freshly seen key becomes. */
  function NewRecord(key: OpenPgp.ParsedKey): (r: KeyInfo)
    ensures r.id == key.id && r.userId == key.userId
    ensures key.isPrivate ==> r.armoredPrivateKey == Some(key.armored) && r.armoredPublicKey == key.publicHalf && r.isDecrypted == Some(key.isDecrypted)
    ensures !key.isPrivate ==> r.armoredPublicKey == key.armored && r.armoredPrivateKey.None? && r.isDecrypted.None?
  {
    if key.isPrivate then
      KeyInfo(key.id, key.userId, key.publicHalf, Some(key.armored), Some(OpenPgp.IsDecrypted(key)))
    else
      KeyInfo(key.id, key.userId, key.armored, None, None)
  }

  /** The fill-only-missing merge of a key into the record of its id: a
      private key fills an empty private slot (with its decrypted flag and
      user id), a public key fills an empty public slot (with its user id). */
  function FillRecord(r: KeyInfo, key: OpenPgp.ParsedKey): (f: KeyInfo)
    ensures f.id == r.id
    // a filled slot is never replaced
    ensures key.isPrivate && HasPrivate(r) ==> f == r
    ensures !key.isPrivate && HasPublic(r) ==> f == r
    // a private key never touches the public slot, a public key never the private one
    ensures key.isPrivate ==> f.armoredPublicKey == r.armoredPublicKey
    ensures !key.isPrivate ==> f.armoredPrivateKey == r.armoredPrivateKey && f.isDecrypted == r.isDecrypted
    // an empty slot is filled from the key, which also brings its user id
    ensures key.isPrivate && !HasPrivate(r) ==>
      f.armoredPrivateKey == Some(key.armored) && f.isDecrypted == Some(key.isDecrypted) && f.userId == key.userId
    ensures !key.isPrivate && !HasPublic(r) ==> f.armoredPublicKey == key.armored && f.userId == key.userId
  {
    var r1 := if !HasPrivate(r) && key.isPrivate
      then r.(armoredPrivateKey := Some(key.armored), isDecrypted := Some(OpenPgp.IsDecrypted(key)), userId := key.userId)
      else r;
    if !HasPublic(r1) && !key.isPrivate
      then r1.(armoredPublicKey := key.armored, userId := key.userId)
      else r1
  }

  /** One step of the loop in `loadSettings`. */
  function MergeKey(keys: seq<KeyInfo>, key: OpenPgp.ParsedKey): (r: seq<KeyInfo>)
    // an unseen id is appended, everything before it unchanged and in order
    ensures FindIndex(keys, key.id) == -1 ==> r == keys + [NewRecord(key)]
    // a known id is merged in place, no other record moves or changes
    ensures FindIndex(keys, key.id) >= 0 ==>
      && |r| == |keys|
      && r[FindIndex(keys, key.id)] == FillRecord(keys[FindIndex(keys, key.id)], key)
      && forall j :: 0 <= j < |keys| && j != FindIndex(keys, key.id) ==> r[j] == keys[j]
    ensures UniqueIds(keys) ==> UniqueIds(r)
    ensures forall j :: 0 <= j < |r| ==> r[j].id == (if j < |keys| then keys[j].id else key.id)
  {
    var index := FindIndex(keys, key.id);
    if index == -1 then keys + [NewRecord(key)]
    else keys[index := FillRecord(keys[index], key)]
  }

  /** The loop of `loadSettings` over keys that all parsed. */
  function Fold(keys: seq<KeyInfo>, parsed: seq<OpenPgp.ParsedKey>): (r: seq<KeyInfo>)
    ensures UniqueIds(keys) ==> UniqueIds(r)
    ensures |keys| <= |r| <= |keys| + |parsed|
    decreases |parsed|
  {
    if |parsed| == 0 then keys else Fold(MergeKey(keys, parsed[0]), parsed[1..])
  }

  /** The registry `loadSettings` leaves, and the error that ended the loop
      when a key file failed to parse. */
  datatype Loaded = Loaded(keys: seq<KeyInfo>, error: Option<string>)

  /** `loadSettings` over the texts of the key files: each text is parsed and
      merged; the first text that does not parse aborts the whole loop,
      leaving the records merged so far. */
  function Load(engine: OpenPgp.Engine, keys: seq<KeyInfo>, texts: seq<string>): (r: Loaded)
    ensures UniqueIds(keys) ==> UniqueIds(r.keys)
    ensures r.error.None? <==> forall i :: 0 <= i < |texts| ==> OpenPgp.OpenHandler(engine, texts[i]).Success?
    decreases |texts|
  {
    if |texts| == 0 then Loaded(keys, None)
    else
      match OpenPgp.OpenHandler(engine, texts[0])
      case Failure(e) => Loaded(keys, Some(e))
      case Success(key) => Load(engine, MergeKey(keys, key), texts[1..])
  }

  /** Loading is the fold over the parsed keys of the longest prefix that
      parses; a failure stops at the first bad text. */
  lemma {:induction false} LoadIsFoldOfParsedPrefix(engine: OpenPgp.Engine, keys: seq<KeyInfo>, texts: seq<string>,
                                                    parsed: seq<OpenPgp.ParsedKey>)
    requires |parsed| <= |texts|
    requires forall i :: 0 <= i < |parsed| ==> OpenPgp.OpenHandler(engine, texts[i]) == Success(parsed[i])
    requires |parsed| == |texts| || OpenPgp.OpenHandler(engine, texts[|parsed|]).Failure?
    ensures Load(engine, keys, texts).keys == Fold(keys, parsed)
    ensures |parsed| < |texts| ==> Load(engine, keys, texts).error == Some(OpenPgp.OpenHandler(engine, texts[|parsed|]).error)
    decreases |parsed|
  {
    if |parsed| > 0 {
      LoadIsFoldOfParsedPrefix(engine, MergeKey(keys, parsed[0]), texts[1..], parsed[1..]);
    }
  }

  /** The record of a key's id already holds what that key would bring. */
  predicate Covers(keys: seq<KeyInfo>, key: OpenPgp.ParsedKey) {
    var i := FindIndex(keys, key.id);
    && i >= 0
    && (key.isPrivate ==> HasPrivate(keys[i]))
    && (!key.isPrivate ==> HasPublic(keys[i]))
  }

  /** Keys whose armored texts are non-empty. */
  predicate NonEmptyTexts(parsed: seq<OpenPgp.ParsedKey>) {
    forall i :: 0 <= i < |parsed| ==> parsed[i].armored != ""
  }

  /** Merging a covered key changes nothing. */
  lemma MergeCovered(keys: seq<KeyInfo>, key: OpenPgp.ParsedKey)
    requires Covers(keys, key)
    ensures MergeKey(keys, key) == keys
  {
    var i := FindIndex(keys, key.id);
    assert FillRecord(keys[i], key) == keys[i];
  }

  /** Merging keeps every record's id and never empties a filled slot, so a
      covered key stays covered. */
  lemma MergeKeepsCover(keys: seq<KeyInfo>, key: OpenPgp.ParsedKey, other: OpenPgp.ParsedKey)
    requires Covers(keys, other)
    ensures Covers(MergeKey(keys, key), other)
  {
    var r := MergeKey(keys, key);
    var i := FindIndex(keys, other.id);
    assert FindIndex(r, other.id) == i by {
      assert r[i].id == other.id;
      assert forall j :: 0 <= j < i ==> r[j].id == keys[j].id;
    }
  }

  /** A non-empty key is covered once merged. */
  lemma MergeCovers(keys: seq<KeyInfo>, key: OpenPgp.ParsedKey)
    requires key.armored != ""
    ensures Covers(MergeKey(keys, key), key)
  {
    var r := MergeKey(keys, key);
    var i := FindIndex(keys, key.id);
    if i == -1 {
      assert r[|keys|].id == key.id;
      assert FindIndex(r, key.id) == |keys|;
    } else {
      assert FindIndex(r, key.id) == i by {
        assert forall j :: 0 <= j < i ==> r[j].id == keys[j].id;
      }
    }
  }

  /** After the fold every folded key is covered. */
  lemma {:induction false} FoldCovers(keys: seq<KeyInfo>, parsed: seq<OpenPgp.ParsedKey>)
    requires NonEmptyTexts(parsed)
    ensures forall i :: 0 <= i < |parsed| ==> Covers(Fold(keys, parsed), parsed[i])
    decreases |parsed|
  {
    if |parsed| > 0 {
      var merged := MergeKey(keys, parsed[0]);
      FoldCovers(merged, parsed[1..]);
      MergeCovers(keys, parsed[0]);
      FoldKeepsCover(merged, parsed[1..], parsed[0]);
      forall i | 1 <= i < |parsed|
        ensures Covers(Fold(keys, parsed), parsed[i])
      {
        assert parsed[i] == parsed[1..][i - 1];
      }
    }
  }

  lemma {:induction false} FoldKeepsCover(keys: seq<KeyInfo>, parsed: seq<OpenPgp.ParsedKey>, other: OpenPgp.ParsedKey)
    requires Covers(keys, other)
    ensures Covers(Fold(keys, parsed), other)
    decreases |parsed|
  {
    if |parsed| > 0 {
      MergeKeepsCover(keys, parsed[0], other);
      FoldKeepsCover(MergeKey(keys, parsed[0]), parsed[1..], other);
    }
  }

  /** Folding keys that are all covered changes nothing. */
  lemma {:induction false} FoldOfCovered(keys: seq<KeyInfo>, parsed: seq<OpenPgp.ParsedKey>)
    requires forall i :: 0 <= i < |parsed| ==> Covers(keys, parsed[i])
    ensures Fold(keys, parsed) == keys
    decreases |parsed|
  {
    if |parsed| > 0 {
      MergeCovered(keys, parsed[0]);
      FoldOfCovered(keys, parsed[1..]);
    }
  }

  /** Re-folding the same key files leaves the registry unchanged. */
  lemma FoldIdempotent(keys: seq<KeyInfo>, parsed: seq<OpenPgp.ParsedKey>)
    requires NonEmptyTexts(parsed)
    ensures Fold(Fold(keys, parsed), parsed) == Fold(keys, parsed)
  {
    FoldCovers(keys, parsed);
    FoldOfCovered(Fold(keys, parsed), parsed);
  }

  function Ids(keys: seq<KeyInfo>): set<string> {
    set k | k in keys :: k.id
  }

  function ParsedIds(parsed: seq<OpenPgp.ParsedKey>): set<string> {
    set p | p in parsed :: p.id
  }

  lemma SameIds(a: seq<KeyInfo>, b: seq<KeyInfo>)
    requires |a| == |b|
    requires forall j :: 0 <= j < |a| ==> a[j].id == b[j].id
    ensures Ids(a) == Ids(b)
  {
    forall x | x in Ids(a) ensures x in Ids(b) {
      var j :| 0 <= j < |a| && a[j].id == x;
      assert b[j] in b;
    }
    forall x | x in Ids(b) ensures x in Ids(a) {
      var j :| 0 <= j < |b| && b[j].id == x;
      assert a[j] in a;
    }
  }

  lemma IdsAppend(keys: seq<KeyInfo>, k: KeyInfo)
    ensures Ids(keys + [k]) == Ids(keys) + {k.id}
  {
    assert forall x :: x in keys + [k] <==> x in keys || x == k;
  }

  lemma MergeIds(keys: seq<KeyInfo>, key: OpenPgp.ParsedKey)
    ensures Ids(MergeKey(keys, key)) == Ids(keys) + {key.id}
  {
    var i := FindIndex(keys, key.id);
    if i == -1 {
      IdsAppend(keys, NewRecord(key));
    } else {
      SameIds(MergeKey(keys, key), keys);
      assert keys[i] in keys;
    }
  }

  lemma ParsedIdsCons(parsed: seq<OpenPgp.ParsedKey>)
    requires |parsed| > 0
    ensures ParsedIds(parsed) == {parsed[0].id} + ParsedIds(parsed[1..])
  {
    assert forall p :: p in parsed <==> p == parsed[0] || p in parsed[1..];
  }

  /** The fold's ids are exactly the starting ids and the folded keys' ids;
      with `UniqueIds`, the registry holds one record per id. */
  lemma {:induction false} FoldIds(keys: seq<KeyInfo>, parsed: seq<OpenPgp.ParsedKey>)
    ensures Ids(Fold(keys, parsed)) == Ids(keys) + ParsedIds(parsed)
    decreases |parsed|
  {
    if |parsed| > 0 {
      MergeIds(keys, parsed[0]);
      FoldIds(MergeKey(keys, parsed[0]), parsed[1..]);
      ParsedIdsCons(parsed);
    } else {
      assert ParsedIds(parsed) == {};
    }
  }

  lemma FoldPair(keys: seq<KeyInfo>, a: OpenPgp.ParsedKey, b: OpenPgp.ParsedKey)
    ensures Fold(keys, [a, b]) == MergeKey(MergeKey(keys, a), b)
  {
    assert [a, b][0] == a && [a, b][1..] == [b];
    assert Fold(keys, [a, b]) == Fold(MergeKey(keys, a), [b]);
    assert [b][0] == b && [b][1..] == [];
    assert Fold(MergeKey(keys, a), [b]) == Fold(MergeKey(MergeKey(keys, a), b), []);
  }

  /** An appended record of a new id is the one `findIndex` finds. */
  lemma FindAppended(keys: seq<KeyInfo>, r: KeyInfo)
    requires FindIndex(keys, r.id) == -1
    ensures FindIndex(keys + [r], r.id) == |keys|
  {
    var k := keys + [r];
    assert k[|keys|].id == r.id;
    assert forall j :: 0 <= j < |keys| ==> k[j].id == keys[j].id;
  }

  /** A private key then a public key of the same new id: one record with
      both slots filled, the public slot holding the half derived from the
      private key and the user id the private key's. */
  lemma PrivateThenPublic(keys: seq<KeyInfo>, priv: OpenPgp.ParsedKey, pub: OpenPgp.ParsedKey)
    requires priv.isPrivate && !pub.isPrivate && priv.id == pub.id
    requires FindIndex(keys, priv.id) == -1
    requires priv.armored != "" && priv.publicHalf != ""
    ensures var a := Fold(keys, [priv, pub]);
      && |a| == |keys| + 1 && a[..|keys|] == keys
      && a[|keys|] == KeyInfo(priv.id, priv.userId, priv.publicHalf, Some(priv.armored), Some(priv.isDecrypted))
  {
    FoldPair(keys, priv, pub);
    var a1 := MergeKey(keys, priv);
    FindAppended(keys, NewRecord(priv));
    assert FillRecord(a1[|keys|], pub) == a1[|keys|];
  }

  /** A public key then a private key of the same new id: one record with
      both slots filled, the public slot keeping the public key file and the
      user id taken from the private key. Together with `PrivateThenPublic`:
      the order decides the contents, not which slots are filled. */
  lemma PublicThenPrivate(keys: seq<KeyInfo>, priv: OpenPgp.ParsedKey, pub: OpenPgp.ParsedKey)
    requires priv.isPrivate && !pub.isPrivate && priv.id == pub.id
    requires FindIndex(keys, priv.id) == -1
    requires priv.armored != "" && pub.armored != ""
    ensures var b := Fold(keys, [pub, priv]);
      && |b| == |keys| + 1 && b[..|keys|] == keys
      && b[|keys|] == KeyInfo(pub.id, priv.userId, pub.armored, Some(priv.armored), Some(priv.isDecrypted))
  {
    FoldPair(keys, pub, priv);
    FindAppended(keys, NewRecord(pub));
  }

  /** What `saveKeys` does: the writes it issues and the notice it shows. */
  datatype Saved = Saved(writes: seq<FileWrite>, notice: string)

  /** `<id>_` followed by `_private` or `_public`, then `.asc`. */
  function SavedKeyFileName(key: OpenPgp.ParsedKey): (name: string)
    ensures name == key.id + (if key.isPrivate then "__private.asc" else "__public.asc")
  {
    key.id + "_" + (if key.isPrivate then "_private" else "_public") + ".asc"
  }

  const PrivateKeyRequired: string := "The provided key is not a private key."

  /** `saveKeys`: the "public" text is written under a name telling whether
      it parsed as private or public (it is not checked); a private text,
      when given and non-empty, must parse as a private key and is written
      next to it; every error is caught and shown as a notice. */
  function SaveKeys(engine: OpenPgp.Engine, publicKey: string, privateKey: Option<string>): (r: Saved)
    ensures OpenPgp.OpenHandler(engine, publicKey).Failure? ==> r.writes == []
    ensures OpenPgp.OpenHandler(engine, publicKey).Success? ==>
      var pub := OpenPgp.OpenHandler(engine, publicKey).value;
      && 1 <= |r.writes| <= 2
      && r.writes[0] == FileWrite(KeyPath(SavedKeyFileName(pub)), publicKey)
    ensures |r.writes| == 2 <==>
      && OpenPgp.OpenHandler(engine, publicKey).Success?
      && privateKey.Some? && OpenPgp.OpenHandler(engine, privateKey.value).Success?
      && OpenPgp.OpenHandler(engine, privateKey.value).value.isPrivate
    ensures |r.writes| == 2 ==>
      r.writes[1] == FileWrite(KeyPath(OpenPgp.OpenHandler(engine, privateKey.value).value.id + "__private.asc"), privateKey.value)
    ensures privateKey.Some? && OpenPgp.OpenHandler(engine, publicKey).Success? &&
      OpenPgp.OpenHandler(engine, privateKey.value).Success? && !OpenPgp.OpenHandler(engine, privateKey.value).value.isPrivate
      ==> r.notice == "An error occurred: " + PrivateKeyRequired
  {
    match OpenPgp.OpenHandler(engine, publicKey)
    case Failure(e) => Saved([], "An error occurred: " + e)
    case Success(pub) =>
      var first := [FileWrite(KeyPath(SavedKeyFileName(pub)), publicKey)];
      if privateKey.None? || privateKey.value == "" then Saved(first, "Saving keys")
      else
        match OpenPgp.OpenHandler(engine, privateKey.value)
        case Failure(e) => Saved(first, "An error occurred: " + e)
        case Success(priv) =>
          if !priv.isPrivate then Saved(first, "An error occurred: " + PrivateKeyRequired)
          else Saved(first + [FileWrite(KeyPath(SavedKeyFileName(priv)), privateKey.value)], "Saving keys")
  }

  /** The local date and time `createPGPNote` reads from the clock. */
  datatype LocalTime = LocalTime(year: nat, month: nat, day: nat, hours: nat, minutes: nat, seconds: nat)

  predicate ValidTime(t: LocalTime) {
    t.month < 12 && 1 <= t.day <= 31 && t.hours < 24 && t.minutes < 60 && t.seconds < 60
  }

  /** `YYYY-MM-DD HHMMSS` (the month is zero-based, as `getMonth` returns it). */
  function Timestamp(t: LocalTime): string {
    Decimal(t.year) + "-" + Pad2(t.month + 1) + "-" + Pad2(t.day) + " " + Pad2(t.hours) + Pad2(t.minutes) + Pad2(t.seconds)
  }

  /** The path `createPGPNote` creates: the folder (or "") then
      `/<timestamp>.pgp`. */
  function NewNotePath(folder: Option<string>, t: LocalTime): string {
    folder.GetOr("") + "/" + Timestamp(t) + ".pgp"
  }

  lemma SliceMiddle(a: string, b: string, c: string)
    ensures (a + b + c)[|a|..|a| + |b|] == b
  {
  }

  /** Where each field sits in a timestamp built from the given pieces. */
  lemma FieldPositions(d: string, m: string, dd: string, h: string, mi: string, se: string)
    requires |m| == |dd| == |h| == |mi| == |se| == 2
    ensures var s := d + "-" + m + "-" + dd + " " + h + mi + se;
      var y := |d|;
      && |s| == y + 13
      && s[..y] == d
      && s[y] == '-' && s[y + 1..y + 3] == m
      && s[y + 3] == '-' && s[y + 4..y + 6] == dd
      && s[y + 6] == ' '
      && s[y + 7..y + 9] == h
      && s[y + 9..y + 11] == mi
      && s[y + 11..] == se
  {
    var s := d + "-" + m + "-" + dd + " " + h + mi + se;
    var y := |d|;
    assert s[..y] == d;
    assert s[y + 1..y + 3] == m by {
      assert forall k :: 0 <= k < 2 ==> s[y + 1 + k] == m[k];
    }
    assert s[y + 4..y + 6] == dd by {
      assert forall k :: 0 <= k < 2 ==> s[y + 4 + k] == dd[k];
    }
    assert s[y + 7..y + 9] == h by {
      assert forall k :: 0 <= k < 2 ==> s[y + 7 + k] == h[k];
    }
    assert s[y + 9..y + 11] == mi by {
      assert forall k :: 0 <= k < 2 ==> s[y + 9 + k] == mi[k];
    }
    assert s[y + 11..] == se by {
      assert forall k :: 0 <= k < 2 ==> s[y + 11 + k] == se[k];
    }
  }

  /** The timestamp's fields read back as the clock's values, at fixed
      positions after the year. */
  lemma TimestampFields(t: LocalTime)
    requires ValidTime(t)
    ensures var s := Timestamp(t);
      var y := |Decimal(t.year)|;
      && |s| == y + 13
      && NumberOf(s[..y]) == Some(t.year)
      && s[y] == '-' && NumberOf(s[y + 1..y + 3]) == Some(t.month + 1)
      && s[y + 3] == '-' && NumberOf(s[y + 4..y + 6]) == Some(t.day)
      && s[y + 6] == ' '
      && NumberOf(s[y + 7..y + 9]) == Some(t.hours)
      && NumberOf(s[y + 9..y + 11]) == Some(t.minutes)
      && NumberOf(s[y + 11..]) == Some(t.seconds)
  {
    Pad2RoundTrip(t.month + 1);
    Pad2RoundTrip(t.day);
    Pad2RoundTrip(t.hours);
    Pad2RoundTrip(t.minutes);
    Pad2RoundTrip(t.seconds);
    NumberOfDecimal(t.year);
    FieldPositions(Decimal(t.year), Pad2(t.month + 1), Pad2(t.day), Pad2(t.hours), Pad2(t.minutes), Pad2(t.seconds));
  }

  /** The new note's path is the folder (or ""), a slash, the timestamp and
      the `.pgp` extension. */
  lemma NewNotePathParts(folder: Option<string>, t: LocalTime)
    requires ValidTime(t)
    ensures var p := NewNotePath(folder, t);
      var n := |folder.GetOr("")| + 1;
      && |p| == n + |Decimal(t.year)| + 17
      && p[..n] == folder.GetOr("") + "/"
      && p[n..|p| - 4] == Timestamp(t)
      && p[|p| - 4..] == ".pgp"
  {
    TimestampFields(t);
    var f := folder.GetOr("") + "/";
    SliceMiddle(f, Timestamp(t), ".pgp");
    assert NewNotePath(folder, t) == f + Timestamp(t) + ".pgp";
  }
}

=== FILE: lifecycle.dfy ===
/** A note's life across the views: created and bound to a recipient,
    edited, locked and unlocked again. */
module Lifecycle {
  import opened Wrappers
  import OpenPgp
  import KeyRegistry
  import NoteView
  import DecryptView
  import NewNoteView

  /** The library decrypts, with `priv` (unlocked with `passphrase` when it is
      still locked), every message it encrypts to `pub`. */
  ghost predicate Inverse(engine: OpenPgp.Engine, pub: OpenPgp.ParsedKey, priv: OpenPgp.ParsedKey, passphrase: Option<string>) {
    forall m: string :: engine.encrypt(m, pub).Success? ==>
      var c := engine.encrypt(m, pub).value;
      && engine.readMessage(c).Success?
      && if priv.isDecrypted then engine.decrypt(engine.readMessage(c).value, priv) == Success(m)
         else engine.unlockKey(priv, passphrase).Success?
              && engine.decrypt(engine.readMessage(c).value, engine.unlockKey(priv, passphrase).value) == Success(m)
  }

  /** Typing saves the ciphertext; locking forgets the plain text but keeps
      the ciphertext; unlocking with the matching private key brings back
      exactly what was typed, on the editing screen. */
  lemma EditLockUnlock(engine: OpenPgp.Engine, v: NoteView.View, contents: string, selected: string, passphrase: string)
    requires v.viewType == NoteView.EditNote
    requires NoteView.Input(engine, v, contents).saveRequested
    requires OpenPgp.OpenHandler(engine, selected).Success? && OpenPgp.OpenHandler(engine, selected).value.isPrivate
    requires Inverse(engine, OpenPgp.OpenHandler(engine, v.publicKey.value).value,
                     OpenPgp.OpenHandler(engine, selected).value, DecryptView.PassphraseArgument(passphrase))
    ensures var edited := NoteView.Input(engine, v, contents).view;
      var locked := NoteView.LockNote(edited);
      var unlocked := DecryptView.Unlock(engine, locked, selected, passphrase);
      && locked.clearText == "" && locked.viewType == NoteView.DecryptNote
      && locked.data == edited.data
      && unlocked.notice.None?
      && unlocked.view.clearText == contents
      && unlocked.view.viewType == NoteView.EditNote
      && unlocked.view.data == edited.data
  {
    var pub := OpenPgp.OpenHandler(engine, v.publicKey.value).value;
    var edited := NoteView.Input(engine, v, contents).view;
    var locked := NoteView.LockNote(edited);
    assert locked.data == engine.encrypt(contents, pub).value;
    var key := OpenPgp.OpenHandler(engine, selected).value;
    assert engine.encrypt(contents, pub).Success?;
    assert OpenPgp.DecryptMessage(engine, key, locked.data, DecryptView.PassphraseArgument(passphrase)) == Success(contents);
  }

  /** An empty file opens on the recipient form; choosing a registered
      recipient, with the rename done, leads to an empty note on the editing
      screen bound to that recipient's public key, with one Lock button. */
  lemma NewNoteToEditing(engine: OpenPgp.Engine, keys: seq<KeyRegistry.KeyInfo>, selectedId: string,
                         filename: string, parentPath: Option<string>)
    requires KeyRegistry.FindIndex(keys, selectedId) >= 0
    ensures var loaded := NoteView.Open(NoteView.Initial(), "");
      var r := NewNoteView.ChooseRecipient(engine, loaded, keys, selectedId, filename, parentPath, None);
      && loaded.viewType == NoteView.NewNote
      && r.view.viewType == NoteView.EditNote
      && r.view.clearText == ""
      && r.view.publicKey == Some(keys[KeyRegistry.FindIndex(keys, selectedId)].armoredPublicKey)
      && NoteView.LockInvariant(r.view) && r.view.lockButtons == 1
  {
    var loaded := NoteView.Open(NoteView.Initial(), "");
    assert NoteView.LockInvariant(loaded);
    var chosen := loaded.(clearText := "", publicKey := Some(keys[KeyRegistry.FindIndex(keys, selectedId)].armoredPublicKey));
    assert NoteView.LockInvariant(chosen);
    NoteView.OperationsKeepLockInvariant(engine, chosen, NoteView.EditNote, "", true, "");
    var saved := NoteView.EncryptAndSave(engine, chosen).view;
    assert saved.actions == [] && saved.lockButtons == 0;
  }

  /** A non-empty file opens locked, and no key that is not private unlocks
      it: the view stays as it is. */
  lemma PublicKeyKeepsNoteLocked(engine: OpenPgp.Engine, contents: string, selected: string, passphrase: string)
    requires contents != ""
    requires OpenPgp.OpenHandler(engine, selected).Success? && !OpenPgp.OpenHandler(engine, selected).value.isPrivate
    ensures var loaded := NoteView.Open(NoteView.Initial(), contents);
      && loaded.viewType == NoteView.DecryptNote
      && DecryptView.Unlock(engine, loaded, selected, passphrase) == DecryptView.Submitted(loaded, Some(DecryptView.NotPrivateKey))
  {
  }

  /** Two edits in a row: the file holds the encryption of the second text
      alone. */
  lemma LastInputWins(engine: OpenPgp.Engine, v: NoteView.View, first: string, second: string)
    requires v.viewType == NoteView.EditNote
    requires NoteView.Input(engine, v, first).saveRequested
    ensures var once := NoteView.Input(engine, v, first).view;
      var twice := NoteView.Input(engine, once, second);
      && once.publicKey == v.publicKey
      && twice.view.clearText == second
      && (twice.saveRequested ==>
            twice.view.data == engine.encrypt(second, OpenPgp.OpenHandler(engine, v.publicKey.value).value).value)
      && (!twice.saveRequested ==> twice.view.data == once.data)
  {
  }

  /** The two form handlers that lead to the editing screen keep each Lock
      button paired with the single "lock_note" tag, like the view's own
      operations. */
  lemma HandlersKeepLockInvariant(engine: OpenPgp.Engine, v: NoteView.View, selected: string, passphrase: string,
                                  keys: seq<KeyRegistry.KeyInfo>, selectedId: string, filename: string,
                                  parentPath: Option<string>, renameError: Option<string>)
    requires NoteView.LockInvariant(v)
    ensures NoteView.LockInvariant(DecryptView.Unlock(engine, v, selected, passphrase).view)
    ensures NoteView.LockInvariant(NewNoteView.ChooseRecipient(engine, v, keys, selectedId, filename, parentPath, renameError).view)
  {
  }
}

=== FILE: memory_storage.dfy ===
/** `MemoryStorage` (services/storage.ts): a key/value cache whose entries may
    carry an absolute expiration time in milliseconds, checked lazily when an
    entry is read. The clock (`Date.now()`) is the explicit parameter `now`. */
module MemoryStorage {
  import opened Wrappers

  /** A stored value and its expiration timestamp, when one was set. */
  datatype Item<V> = Item(value: V, expiration: Option<int>)

  type Store<V> = map<string, Item<V>>

  /** What `get` returns and the store it leaves behind. */
  datatype Read<V> = Read(value: Option<V>, store: Store<V>)

  function Empty<V>(): (s: Store<V>)
    ensures |s| == 0
  {
    map[]
  }

  /** An item expires only when it has a non-zero expiration (zero is falsy
      in the source) and the clock is strictly past it. */
  predicate IsExpired<V>(store: Store<V>, key: string, now: int) {
    && key in store
    && store[key].expiration.Some?
    && store[key].expiration.value != 0
    && now > store[key].expiration.value
  }

  /** The expiration a `set` at time `now` records: none when the duration is
      absent or zero, otherwise `now + duration`. */
  function ExpirationFor(expirationTime: Option<int>, now: int): (e: Option<int>)
    ensures e.None? <==> expirationTime.None? || expirationTime.value == 0
    ensures e.Some? ==> e.value - now == expirationTime.value
  {
    if expirationTime.Some? && expirationTime.value != 0 then Some(now + expirationTime.value) else None
  }

  function Set<V>(store: Store<V>, key: string, value: V, expirationTime: Option<int>, now: int): (s: Store<V>)
    ensures s.Keys == store.Keys + {key}
    ensures s[key].value == value && s[key].expiration == ExpirationFor(expirationTime, now)
    ensures forall k :: k in store && k != key ==> s[k] == store[k]
  {
    store[key := Item(value, ExpirationFor(expirationTime, now))]
  }

  function Remove<V>(store: Store<V>, key: string): (s: Store<V>)
    ensures s.Keys == store.Keys - {key}
    ensures forall k :: k in s ==> s[k] == store[k]
  {
    store - {key}
  }

  /** `get`: an expired entry is removed and reads as undefined; otherwise the
      stored value is returned and the store is untouched. */
  function Get<V>(store: Store<V>, key: string, now: int): (r: Read<V>)
    ensures IsExpired(store, key, now) ==> r.value.None? && r.store == Remove(store, key)
    ensures !IsExpired(store, key, now) ==> r.store == store
    ensures r.value.Some? <==> key in store && !IsExpired(store, key, now)
    ensures r.value.Some? ==> r.value.value == store[key].value
  {
    if IsExpired(store, key, now) then Read(None, Remove(store, key))
    else if key in store then Read(Some(store[key].value), store)
    else Read(None, store)
  }

  /** The property name `update` calls on the store object. A stored entry
      under this name hides `Object.prototype.hasOwnProperty`. */
  const HasOwnProperty: string := "hasOwnProperty"

  const NotAFunction: string := "this.data.hasOwnProperty is not a function"

  /** `update`: like `set` on a present key, no change on a missing one. Once
      an entry named "hasOwnProperty" is stored, the call finds that item
      instead of the method and throws a TypeError, whatever the key. */
  function Update<V>(store: Store<V>, key: string, value: V, expirationTime: Option<int>, now: int): (r: Result<Store<V>>)
    ensures r.Failure? <==> HasOwnProperty in store
    ensures r.Failure? ==> r.error == NotAFunction
    ensures r.Success? && key !in store ==> r.value == store
    ensures r.Success? && key in store ==> r.value == Set(store, key, value, expirationTime, now)
  {
    if HasOwnProperty in store then Failure(NotAFunction)
    else if key in store then Success(Set(store, key, value, expirationTime, now))
    else Success(store)
  }

  /** Setting an entry named "hasOwnProperty" breaks every later `update`,
      for every key; removing that entry mends it. */
  lemma ShadowedUpdateFails<V>(store: Store<V>, v: V, e: Option<int>, now: int,
                               key: string, value: V, e2: Option<int>, now2: int)
    ensures Update(Set(store, HasOwnProperty, v, e, now), key, value, e2, now2).Failure?
    ensures Update(Remove(Set(store, HasOwnProperty, v, e, now), HasOwnProperty), key, value, e2, now2).Success?
  {
  }

  /** An entry `set` at time `t` with duration `e` is expired at `now`
      exactly when the duration is non-zero, the resulting timestamp is not
      the falsy 0, and `now` is strictly past it. */
  lemma SetExpiresIff<V>(store: Store<V>, key: string, value: V, e: Option<int>, t: int, now: int)
    ensures IsExpired(Set(store, key, value, e, t), key, now) <==>
      e.Some? && e.value != 0 && t + e.value != 0 && now > t + e.value
  {
  }

  function Clear<V>(store: Store<V>): (s: Store<V>)
    ensures s.Keys == {}
  {
    map[]
  }

  /** `getAllKeys`: every stored key once, expired entries not yet read
      included. */
  method AllKeys<V>(store: Store<V>) returns (keys: seq<string>)
    ensures forall k :: k in keys <==> k in store
    ensures forall i, j :: 0 <= i < j < |keys| ==> keys[i] != keys[j]
  {
    keys := [];
    var remaining := store.Keys;
    while remaining != {}
      invariant remaining <= store.Keys
      invariant forall k :: k in keys <==> k in store && k !in remaining
      invariant forall i, j :: 0 <= i < j < |keys| ==> keys[i] != keys[j]
      decreases |remaining|
    {
      var k :| k in remaining;
      keys := keys + [k];
      remaining := remaining - {k};
    }
  }

  /** An entry set without a duration, or with duration zero, never expires. */
  lemma SetWithoutExpiryNeverExpires<V>(store: Store<V>, key: string, value: V, expirationTime: Option<int>, now: int, later: int)
    requires expirationTime.None? || expirationTime.value == 0
    ensures !IsExpired(Set(store, key, value, expirationTime, now), key, later)
    ensures Get(Set(store, key, value, expirationTime, now), key, later).value == Some(value)
  {
  }

  /** `set(k, v, t)` then `get(k)` no later than the expiration returns v and
      leaves the store as `set` made it. */
  lemma SetThenGet<V>(store: Store<V>, key: string, value: V, expirationTime: Option<int>, now: int, later: int)
    requires expirationTime.Some? ==> later <= now + expirationTime.value || now + expirationTime.value == 0
    ensures var s := Set(store, key, value, expirationTime, now);
      Get(s, key, later) == Read(Some(value), s)
  {
  }

  /** Past its expiration the entry reads as undefined and is gone afterwards,
      every other entry untouched. */
  lemma SetThenGetExpired<V>(store: Store<V>, key: string, value: V, duration: int, now: int, later: int)
    requires duration != 0 && now + duration != 0 && later > now + duration
    ensures var r := Get(Set(store, key, value, Some(duration), now), key, later);
      r.value == None && key !in r.store &&
      forall k :: k in store && k != key ==> k in r.store && r.store[k] == store[k]
  {
  }

  /** Reading one key never disturbs another. */
  lemma GetKeepsOtherKeys<V>(store: Store<V>, key: string, other: string, now: int)
    requires other != key
    ensures var s := Get(store, key, now).store;
      (other in s <==> other in store) && (other in s ==> s[other] == store[other])
  {
  }
}

=== FILE: new_note_view.dfy ===
/** The new-note screen (views/pgp/newNoteView.ts): choosing the recipient
    key, the first encryption and the rename to `<name>.pgp`. */
module NewNoteView {
  import opened Wrappers
  import FormatKeyId
  import KeyRegistry
  import NoteView
  import OpenPgp
  import DecryptView

  /** The recipient drop-down: one option per registry record, valued by its
      key id and labelled `<user id> (<formatted id>)`. */
  function RecipientOptions(keys: seq<KeyRegistry.KeyInfo>): (r: seq<DecryptView.Choice>)
    ensures |r| == |keys|
    ensures forall i :: 0 <= i < |keys| ==> r[i].value == keys[i].id
    ensures forall i :: 0 <= i < |keys| ==> r[i].caption == keys[i].userId + " (" + FormatKeyId.Format(keys[i].id) + ")"
  {
    seq(|keys|, i requires 0 <= i < |keys| => DecryptView.Choice(keys[i].id, keys[i].userId + " (" + FormatKeyId.Format(keys[i].id) + ")"))
  }

  /** Every option offered is found again by `findIndex` when submitted, at
      the first record of that id. */
  lemma OptionsAreFound(keys: seq<KeyRegistry.KeyInfo>, i: nat)
    requires i < |keys| && KeyRegistry.UniqueIds(keys)
    ensures KeyRegistry.FindIndex(keys, RecipientOptions(keys)[i].value) == i
  {
  }

  /** `<parent path or "">/<file name>.pgp`. */
  function RenamePath(parentPath: Option<string>, filename: string): (p: string)
    ensures |p| == |parentPath.GetOr("")| + |filename| + 5
    ensures p[..|parentPath.GetOr("")| + 1] == parentPath.GetOr("") + "/"
    ensures p[|parentPath.GetOr("")| + 1..|p| - 4] == filename
    ensures p[|p| - 4..] == ".pgp"
  {
    var prefix := parentPath.GetOr("") + "/";
    var p := prefix + filename + ".pgp";
    assert p[|prefix|..|p| - 4] == filename;
    p
  }

  /** What the submit leaves: the view, the rename it asked for, and the
      notices shown. */
  datatype Chosen = Chosen(view: NoteView.View, renameTo: Option<string>, notices: seq<string>)

  /** The form's submit. An id not in the registry does nothing. Otherwise the
      clear text is emptied, the record's public key becomes the recipient,
      the (empty) note is encrypted and saved, whose errors are swallowed,
      the file is renamed, and, if the rename succeeded, the editing screen
      is shown. `renameError` is the vault's answer to the rename. */
  function ChooseRecipient(engine: OpenPgp.Engine, v: NoteView.View, keys: seq<KeyRegistry.KeyInfo>,
                           selectedId: string, filename: string, parentPath: Option<string>,
                           renameError: Option<string>): (r: Chosen)
    ensures KeyRegistry.FindIndex(keys, selectedId) == -1 ==> r == Chosen(v, None, [])
    ensures KeyRegistry.FindIndex(keys, selectedId) >= 0 ==>
      && r.view.clearText == ""
      && r.view.publicKey == Some(keys[KeyRegistry.FindIndex(keys, selectedId)].armoredPublicKey)
      && r.renameTo == Some(RenamePath(parentPath, filename))
      && (renameError.None? ==> r.view.viewType == NoteView.EditNote)
      && (renameError.Some? ==> r.view.viewType == v.viewType)
  {
    var index := KeyRegistry.FindIndex(keys, selectedId);
    if index == -1 then Chosen(v, None, [])
    else
      var chosen := v.(clearText := "", publicKey := Some(keys[index].armoredPublicKey));
      var saved := NoteView.EncryptAndSave(engine, chosen);
      var notices := if saved.notice.Some? then [saved.notice.value] else [];
      var target := RenamePath(parentPath, filename);
      if renameError.None? then Chosen(NoteView.SetView(saved.view, NoteView.EditNote), Some(target), notices)
      else Chosen(saved.view, Some(target), notices + [renameError.value])
  }

  /** A failed encryption does not stop the submit: with the rename done, the
      note reaches the editing screen either way, its contents encrypted only
      if the encryption succeeded. */
  lemma EditingEvenIfEncryptionFails(engine: OpenPgp.Engine, v: NoteView.View, keys: seq<KeyRegistry.KeyInfo>,
                                     selectedId: string, filename: string, parentPath: Option<string>)
    requires KeyRegistry.FindIndex(keys, selectedId) >= 0
    ensures var chosen := v.(clearText := "", publicKey := Some(keys[KeyRegistry.FindIndex(keys, selectedId)].armoredPublicKey));
      var r := ChooseRecipient(engine, v, keys, selectedId, filename, parentPath, None);
      && r.view.viewType == NoteView.EditNote
      && r.view.data == NoteView.EncryptAndSave(engine, chosen).view.data
      && (!NoteView.EncryptAndSave(engine, chosen).saveRequested ==> r.view.data == v.data && |r.notices| == 1)
  {
  }
}

=== FILE: note_view.dfy ===
/** The encrypted-note view (views/pgp/index.ts) and its editing screen
    (views/pgp/editingView.ts): the state the view keeps, how opening a file
    picks a screen, the lock action, and encrypt-and-save. Rendering is
    reduced to what it changes in that state. */
module NoteView {
  import opened Wrappers
  import OpenPgp

  datatype ViewType = NewNote | EditNote | DecryptNote

  datatype ViewMode = Source | Preview

  const LockAction: string := "lock_note"
  const CopyAction: string := "copy"

  datatype View = View(
    data: string,              // the file contents: the armored ciphertext
    clearText: string,         // the decrypted text while unlocked
    publicKey: Option<string>, // recipient key; undefined until chosen or unlocked
    viewMode: ViewMode,
    viewType: ViewType,
    actions: seq<string>,      // tags of the actions added so far
    lockButtons: nat,          // Lock buttons this view has put in its header
    editorText: string,        // contents of the editing area, set when it is rendered
    attached: bool)            // false once the leaf has been detached

  /** A freshly constructed view, before the host loads a file into it. */
  function Initial(): (v: View)
    ensures v.viewType == NewNote && v.clearText == "" && v.publicKey.None? && v.actions == []
  {
    View("", "", None, Source, NewNote, [], 0, "", true)
  }

  function Count(s: seq<string>, x: string): nat {
    if |s| == 0 then 0 else (if s[0] == x then 1 else 0) + Count(s[1..], x)
  }

  /** Each Lock button of the view belongs to the one "lock_note" tag. */
  predicate LockInvariant(v: View) {
    Count(v.actions, LockAction) <= 1 && v.lockButtons == Count(v.actions, LockAction)
  }

  lemma {:induction false} CountAppend(a: seq<string>, b: seq<string>, x: string)
    ensures Count(a + b, x) == Count(a, x) + Count(b, x)
    decreases |a|
  {
    if |a| == 0 {
      assert a + b == b;
    } else {
      assert (a + b)[1..] == a[1..] + b;
      CountAppend(a[1..], b, x);
    }
  }

  lemma {:induction false} CountZero(s: seq<string>, x: string)
    ensures Count(s, x) == 0 <==> x !in s
    decreases |s|
  {
    if |s| > 0 {
      CountZero(s[1..], x);
      assert s == [s[0]] + s[1..];
    }
  }

  /** Rendering the editing screen: the Lock action is added once (the
      "lock_note" tag guards it) and the editor shows the current clear text. */
  function RenderEditing(v: View): (r: View)
    ensures LockAction in r.actions
    ensures LockAction in v.actions ==> r.actions == v.actions && r.lockButtons == v.lockButtons
    ensures LockAction !in v.actions ==> r.actions == v.actions + [LockAction] && r.lockButtons == v.lockButtons + 1
    ensures r.editorText == v.clearText
    ensures r == v.(actions := r.actions, lockButtons := r.lockButtons, editorText := r.editorText)
    ensures LockInvariant(v) ==> LockInvariant(r)
  {
    var v1 := if LockAction !in v.actions
      then v.(actions := v.actions + [LockAction], lockButtons := v.lockButtons + 1)
      else v;
    assert LockAction !in v.actions ==> Count(v1.actions, LockAction) == Count(v.actions, LockAction) + 1 by {
      CountAppend(v.actions, [LockAction], LockAction);
      assert Count([LockAction], LockAction) == 1;
    }
    assert LockAction !in v.actions ==> Count(v.actions, LockAction) == 0 by {
      CountZero(v.actions, LockAction);
    }
    v1.(editorText := v.clearText)
  }

  /** `setView`: records the screen and renders it; only the editing screen
      changes any state. */
  function SetView(v: View, t: ViewType): (r: View)
    ensures r.viewType == t
    ensures r.data == v.data && r.clearText == v.clearText && r.publicKey == v.publicKey
    ensures r.viewMode == v.viewMode && r.attached == v.attached
    ensures t != EditNote ==> r == v.(viewType := t)
    ensures t == EditNote ==> LockAction in r.actions && r.editorText == v.clearText
    ensures LockInvariant(v) ==> LockInvariant(r)
  {
    var v1 := v.(viewType := t);
    if t == EditNote then RenderEditing(v1) else v1
  }

  /** `setViewData`: clear data picks the screen (empty file: new note;
      anything else: a locked note); data that is not clear means a second
      view of the same note, and the view detaches itself untouched. */
  function SetViewData(v: View, data: string, clear: bool): (r: View)
    ensures clear && data == "" ==> r.viewType == NewNote
    ensures clear && data != "" ==> r.viewType == DecryptNote
    ensures clear ==> r == v.(viewType := r.viewType)
    ensures !clear ==> r == v.(attached := false)
  {
    if clear then SetView(v, if data == "" then NewNote else DecryptNote)
    else v.(attached := false)
  }

  /** Opening a file: the host stores its contents in `data` and calls
      `setViewData` with them as clear data. */
  function Open(v: View, contents: string): (r: View)
    ensures r.data == contents
    ensures r.viewType == (if contents == "" then NewNote else DecryptNote)
    ensures r.clearText == v.clearText && r.publicKey == v.publicKey && r.actions == v.actions
  {
    SetViewData(v.(data := contents), contents, true)
  }

  /** `getViewData`: what the host writes back to the file. */
  function GetViewData(v: View): string {
    v.data
  }

  /** The copy action: tags the click and hands the ciphertext to the
      clipboard. */
  datatype Copied = Copied(view: View, clipboard: string)

  function Copy(v: View): (r: Copied)
    ensures r.clipboard == GetViewData(v)
    ensures r.view == v.(actions := v.actions + [CopyAction])
    ensures LockInvariant(v) ==> LockInvariant(r.view)
  {
    assert Count(v.actions + [CopyAction], LockAction) == Count(v.actions, LockAction) by {
      CountAppend(v.actions, [CopyAction], LockAction);
    }
    Copied(v.(actions := v.actions + [CopyAction]), v.data)
  }

  /** The actions without any "lock_note" tag, the others kept in order. */
  function WithoutLock(actions: seq<string>): (r: seq<string>)
    ensures LockAction !in r
    ensures |r| <= |actions|
    ensures Count(r, LockAction) == 0
    decreases |actions|
  {
    if |actions| == 0 then []
    else if actions[0] == LockAction then WithoutLock(actions[1..])
    else [actions[0]] + WithoutLock(actions[1..])
  }

  /** Dropping the "lock_note" tags keeps every other entry as often as it
      occurred, and nothing else is dropped. */
  lemma {:induction false} WithoutLockKeepsOthers(actions: seq<string>, x: string)
    requires x != LockAction
    ensures Count(WithoutLock(actions), x) == Count(actions, x)
    ensures |WithoutLock(actions)| == |actions| - Count(actions, LockAction)
    ensures LockAction !in actions ==> WithoutLock(actions) == actions
    decreases |actions|
  {
    if |actions| > 0 {
      WithoutLockKeepsOthers(actions[1..], x);
      var rest := WithoutLock(actions[1..]);
      if actions[0] != LockAction {
        assert ([actions[0]] + rest)[1..] == rest;
      }
      if LockAction !in actions {
        assert LockAction !in actions[1..];
        assert actions == [actions[0]] + actions[1..];
      }
    }
  }

  /** The filter works piece by piece, so the kept entries stay in their
      order: a lone "lock_note" disappears and any other lone entry stays. */
  lemma {:induction false} WithoutLockAppend(a: seq<string>, b: seq<string>)
    ensures WithoutLock(a + b) == WithoutLock(a) + WithoutLock(b)
    ensures WithoutLock([LockAction]) == []
    ensures forall x :: x != LockAction ==> WithoutLock([x]) == [x]
    decreases |a|
  {
    if |a| > 0 {
      WithoutLockAppend(a[1..], b);
      assert (a + b)[1..] == a[1..] + b;
      assert (a + b)[0] == a[0];
    } else {
      assert a + b == b;
    }
    forall x | x != LockAction
      ensures WithoutLock([x]) == [x]
    {
      assert [x][1..] == [];
    }
    assert [LockAction][1..] == [];
  }

  /** `lockNote`: forget the clear text, show the locked screen, remove a
      Lock button and every "lock_note" tag. The ciphertext and recipient
      are not touched and nothing is re-encrypted. */
  function LockNote(v: View): (r: View)
    ensures r.clearText == "" && r.viewType == DecryptNote
    ensures r.data == v.data && r.publicKey == v.publicKey && r.viewMode == v.viewMode
    ensures r.actions == WithoutLock(v.actions)
    ensures r.lockButtons == if v.lockButtons == 0 then 0 else v.lockButtons - 1
    ensures LockInvariant(v) ==> LockInvariant(r)
  {
    var v1 := SetView(v.(clearText := ""), DecryptNote);
    v1.(lockButtons := if v1.lockButtons == 0 then 0 else v1.lockButtons - 1,
        actions := WithoutLock(v1.actions))
  }

  /** What `encryptAndSave` leaves: the view, whether a save was requested,
      and the notice an error produced. Errors never propagate. */
  datatype Saved = Saved(view: View, saveRequested: bool, notice: Option<string>)

  /** `encryptAndSave`: parse the recipient key, encrypt the clear text with
      it and keep the ciphertext as the file contents; on any failure the
      view is left as it was. */
  function EncryptAndSave(engine: OpenPgp.Engine, v: View): (r: Saved)
    ensures r.saveRequested ==>
      && v.publicKey.Some?
      && OpenPgp.OpenHandler(engine, v.publicKey.value).Success?
      && var key := OpenPgp.OpenHandler(engine, v.publicKey.value).value;
         !key.isPrivate && engine.encrypt(v.clearText, key).Success?
         && r.view == v.(data := engine.encrypt(v.clearText, key).value)
    ensures !r.saveRequested ==> r.view == v && r.notice.Some?
    ensures r.view.viewType == v.viewType && r.view.clearText == v.clearText
  {
    var handler := if v.publicKey.None? then Failure(engine.noKeyError) else OpenPgp.OpenHandler(engine, v.publicKey.value);
    match handler
    case Failure(e) => Saved(v, false, Some(e))
    case Success(key) =>
      match OpenPgp.EncryptMessage(engine, key, v.clearText)
      case Failure(e) => Saved(v, false, Some(e))
      case Success(ciphertext) => Saved(v.(data := ciphertext), true, None)
  }

  /** Encrypt-and-save succeeds exactly when the recipient key parses as a
      public key and the library encrypts; then the file contents become
      that ciphertext. */
  lemma EncryptAndSaveSucceedsIff(engine: OpenPgp.Engine, v: View)
    ensures EncryptAndSave(engine, v).saveRequested <==>
      && v.publicKey.Some?
      && OpenPgp.OpenHandler(engine, v.publicKey.value).Success?
      && !OpenPgp.OpenHandler(engine, v.publicKey.value).value.isPrivate
      && engine.encrypt(v.clearText, OpenPgp.OpenHandler(engine, v.publicKey.value).value).Success?
  {
  }

  /** An input event in the editor: the clear text becomes the editor's
      contents and is encrypted and saved. The listener exists only while
      the editing screen is shown. */
  function Input(engine: OpenPgp.Engine, v: View, contents: string): (r: Saved)
    requires v.viewType == EditNote
    ensures r.view.clearText == contents && r.view.editorText == contents
    ensures r.view.viewType == EditNote
    ensures r.view.actions == v.actions && r.view.lockButtons == v.lockButtons
    ensures r.saveRequested ==>
      && v.publicKey.Some? && OpenPgp.OpenHandler(engine, v.publicKey.value).Success?
      && var key := OpenPgp.OpenHandler(engine, v.publicKey.value).value;
         engine.encrypt(contents, key).Success? && GetViewData(r.view) == engine.encrypt(contents, key).value
    ensures !r.saveRequested ==> r.view.data == v.data && r.view.publicKey == v.publicKey
  {
    EncryptAndSave(engine, v.(clearText := contents, editorText := contents))
  }

  /** Every operation of the view keeps each Lock button paired with the
      single "lock_note" tag, so repeated renders never add a second one. */
  lemma OperationsKeepLockInvariant(engine: OpenPgp.Engine, v: View, t: ViewType, data: string, clear: bool, contents: string)
    requires LockInvariant(v)
    ensures LockInvariant(SetView(v, t))
    ensures LockInvariant(SetViewData(v, data, clear))
    ensures LockInvariant(Open(v, contents))
    ensures LockInvariant(LockNote(v))
    ensures LockInvariant(Copy(v).view)
    ensures LockInvariant(EncryptAndSave(engine, v).view)
    ensures v.viewType == EditNote ==> LockInvariant(Input(engine, v, contents).view)
  {
  }

  /** Rendering the editing screen twice is rendering it once. */
  lemma RenderTwice(v: View)
    ensures SetView(SetView(v, EditNote), EditNote) == SetView(v, EditNote)
  {
  }
}

=== FILE: openpgp.dfy ===
/** The adapter around the OpenPGP library (services/openpgp.ts). The library
    itself is abstract: an `Engine` is a record of total functions, each of
    which either returns or fails with an error message, standing for
    `readKey`, `readMessage`, `decryptKey`, `decrypt`, `encrypt` and
    `generateKey`. What the model fixes is the adapter's own logic: the
    algorithm table, the private/public guards and the passphrase branch. */
module OpenPgp {
  import opened Wrappers
  import opened Text

  /** The `Algorithm` union of algorithm tokens. */
  datatype Algorithm =
    | Rsa2048 | Rsa3072 | Rsa4096
    | EccEd25519 | EccCurve25519 | EccP256 | EccP384 | EccP521 | EccSecp256k1
    | EccBrainpoolP256r1 | EccBrainpoolP384r1 | EccBrainpoolP512r1

  function Token(a: Algorithm): string {
    match a
    case Rsa2048 => "RSA-2048"
    case Rsa3072 => "RSA-3072"
    case Rsa4096 => "RSA-4096"
    case EccEd25519 => "ECC-ed25519"
    case EccCurve25519 => "ECC-Curve25519"
    case EccP256 => "ECC-p256"
    case EccP384 => "ECC-p384"
    case EccP521 => "ECC-p521"
    case EccSecp256k1 => "ECC-secp256k1"
    case EccBrainpoolP256r1 => "ECC-brainpoolP256r1"
    case EccBrainpoolP384r1 => "ECC-brainpoolP384r1"
    case EccBrainpoolP512r1 => "ECC-brainpoolP512r1"
  }

  /** One entry of the algorithm drop-down: token and label. */
  datatype AlgorithmEntry = AlgorithmEntry(value: string, display: string)

  /** `algorithmList`, in the order the drop-down shows it. */
  function AlgorithmList(): seq<AlgorithmEntry> {
    [ AlgorithmEntry("RSA-2048", "RSA-2048 (Standard Security Level)"),
      AlgorithmEntry("RSA-3072", "RSA-3072 (High Security Level)"),
      AlgorithmEntry("RSA-4096", "RSA-4096 (Very High Security Level)"),
      AlgorithmEntry("ECC-ed25519", "ECC-ed25519 (High Security Level)"),
      AlgorithmEntry("ECC-Curve25519", "ECC-Curve25519 (High Security Level)"),
      AlgorithmEntry("ECC-p256", "ECC-p256 (Standard Security Level)"),
      AlgorithmEntry("ECC-p384", "ECC-p384 (High Security Level)"),
      AlgorithmEntry("ECC-p521", "ECC-p521 (Very High Security Level)"),
      AlgorithmEntry("ECC-secp256k1", "ECC-secp256k1 (High Security Level)"),
      AlgorithmEntry("ECC-brainpoolP256r1", "ECC-brainpoolP256r1 (High Security Level)"),
      AlgorithmEntry("ECC-brainpoolP384r1", "ECC-brainpoolP384r1 (High Security Level)"),
      AlgorithmEntry("ECC-brainpoolP512r1", "ECC-brainpoolP512r1 (Very High Security Level)") ]
  }

  datatype KeyType = Rsa | Ecc

  /** The key-generation options `getAlgorithm` contributes. */
  datatype KeyParams = KeyParams(keyType: KeyType, curve: Option<string>, rsaBits: Option<nat>)

  /** `getAlgorithm`: the switch over algorithm tokens; any other string
      throws. The parameter is a string because the value arrives from a
      drop-down at run time, whatever the static type says. */
  function GetAlgorithm(value: string): (r: Result<KeyParams>)
    ensures r.Failure? ==> r.error == "Unsupported algorithm: " + value
  {
    match value
    case "RSA-2048" => Success(KeyParams(Rsa, None, Some(2048)))
    case "RSA-3072" => Success(KeyParams(Rsa, None, Some(3072)))
    case "RSA-4096" => Success(KeyParams(Rsa, None, Some(4096)))
    case "ECC-ed25519" => Success(KeyParams(Ecc, Some("ed25519"), None))
    case "ECC-Curve25519" => Success(KeyParams(Ecc, Some("curve25519"), None))
    case "ECC-p256" => Success(KeyParams(Ecc, Some("p256"), None))
    case "ECC-p384" => Success(KeyParams(Ecc, Some("p384"), None))
    case "ECC-p521" => Success(KeyParams(Ecc, Some("p521"), None))
    case "ECC-secp256k1" => Success(KeyParams(Ecc, Some("secp256k1"), None))
    case "ECC-brainpoolP256r1" => Success(KeyParams(Ecc, Some("brainpoolP256r1"), None))
    case "ECC-brainpoolP384r1" => Success(KeyParams(Ecc, Some("brainpoolP384r1"), None))
    case "ECC-brainpoolP512r1" => Success(KeyParams(Ecc, Some("brainpoolP512r1"), None))
    case _ => Failure("Unsupported algorithm: " + value)
  }

  /** The union in the order of the list. */
  function AllAlgorithms(): (all: seq<Algorithm>)
    ensures forall i, j :: 0 <= i < j < |all| ==> all[i] != all[j]
  {
    [ Rsa2048, Rsa3072, Rsa4096, EccEd25519, EccCurve25519, EccP256, EccP384,
      EccP521, EccSecp256k1, EccBrainpoolP256r1, EccBrainpoolP384r1, EccBrainpoolP512r1 ]
  }

  lemma AllAlgorithmsComplete(a: Algorithm)
    ensures a in AllAlgorithms()
  {
    var all := AllAlgorithms();
    match a
    case Rsa2048 => assert all[0] == a;
    case Rsa3072 => assert all[1] == a;
    case Rsa4096 => assert all[2] == a;
    case EccEd25519 => assert all[3] == a;
    case EccCurve25519 => assert all[4] == a;
    case EccP256 => assert all[5] == a;
    case EccP384 => assert all[6] == a;
    case EccP521 => assert all[7] == a;
    case EccSecp256k1 => assert all[8] == a;
    case EccBrainpoolP256r1 => assert all[9] == a;
    case EccBrainpoolP384r1 => assert all[10] == a;
    case EccBrainpoolP512r1 => assert all[11] == a;
  }

  /** Reads a token back into the union; the inverse of `Token`. */
  function ParseAlgorithm(value: string): Option<Algorithm> {
    match value
    case "RSA-2048" => Some(Rsa2048)
    case "RSA-3072" => Some(Rsa3072)
    case "RSA-4096" => Some(Rsa4096)
    case "ECC-ed25519" => Some(EccEd25519)
    case "ECC-Curve25519" => Some(EccCurve25519)
    case "ECC-p256" => Some(EccP256)
    case "ECC-p384" => Some(EccP384)
    case "ECC-p521" => Some(EccP521)
    case "ECC-secp256k1" => Some(EccSecp256k1)
    case "ECC-brainpoolP256r1" => Some(EccBrainpoolP256r1)
    case "ECC-brainpoolP384r1" => Some(EccBrainpoolP384r1)
    case "ECC-brainpoolP512r1" => Some(EccBrainpoolP512r1)
    case _ => None
  }

  lemma ParseToken(a: Algorithm)
    ensures ParseAlgorithm(Token(a)) == Some(a)
  {
  }

  /** Different algorithms have different tokens. */
  lemma TokenInjective(a: Algorithm, b: Algorithm)
    requires a != b
    ensures Token(a) != Token(b)
  {
    ParseToken(a);
    ParseToken(b);
  }

  /** Entry i of the list carries the token of algorithm i of the union. */
  lemma AlgorithmListValues()
    ensures |AlgorithmList()| == |AllAlgorithms()| == 12
    ensures forall i :: 0 <= i < 12 ==> AlgorithmList()[i].value == Token(AllAlgorithms()[i])
  {
  }

  /** The list has twelve pairwise distinct values, begins with RSA-2048, and
      its values are exactly the tokens of the `Algorithm` union. */
  lemma AlgorithmListIsTheUnion()
    ensures |AlgorithmList()| == 12
    ensures AlgorithmList()[0].value == Token(Rsa2048)
    ensures forall i, j :: 0 <= i < j < |AlgorithmList()| ==> AlgorithmList()[i].value != AlgorithmList()[j].value
    ensures forall a: Algorithm :: exists i :: 0 <= i < |AlgorithmList()| && AlgorithmList()[i].value == Token(a)
    ensures forall i :: 0 <= i < |AlgorithmList()| ==> ParseAlgorithm(AlgorithmList()[i].value).Some?
  {
    var l := AlgorithmList();
    var all := AllAlgorithms();
    AlgorithmListValues();
    forall i, j | 0 <= i < j < |l|
      ensures l[i].value != l[j].value
    {
      TokenInjective(all[i], all[j]);
    }
    forall a: Algorithm
      ensures exists i :: 0 <= i < |l| && l[i].value == Token(a)
    {
      AllAlgorithmsComplete(a);
      var i :| 0 <= i < |all| && all[i] == a;
      assert l[i].value == Token(a);
    }
    forall i | 0 <= i < |l|
      ensures ParseAlgorithm(l[i].value).Some?
    {
      ParseToken(all[i]);
    }
  }

  /** `getAlgorithm` is total on the union and throws on every other string:
      it succeeds exactly on the tokens of the algorithm list. */
  lemma GetAlgorithmTotalOnUnion(value: string)
    ensures GetAlgorithm(value).Success? <==> exists a: Algorithm :: Token(a) == value
  {
    if GetAlgorithm(value).Success? {
      match value
      case "RSA-2048" => assert Token(Rsa2048) == value;
      case "RSA-3072" => assert Token(Rsa3072) == value;
      case "RSA-4096" => assert Token(Rsa4096) == value;
      case "ECC-ed25519" => assert Token(EccEd25519) == value;
      case "ECC-Curve25519" => assert Token(EccCurve25519) == value;
      case "ECC-p256" => assert Token(EccP256) == value;
      case "ECC-p384" => assert Token(EccP384) == value;
      case "ECC-p521" => assert Token(EccP521) == value;
      case "ECC-secp256k1" => assert Token(EccSecp256k1) == value;
      case "ECC-brainpoolP256r1" => assert Token(EccBrainpoolP256r1) == value;
      case "ECC-brainpoolP384r1" => assert Token(EccBrainpoolP384r1) == value;
      case "ECC-brainpoolP512r1" => assert Token(EccBrainpoolP512r1) == value;
    }
  }

  predicate IsRsa(a: Algorithm) {
    a.Rsa2048? || a.Rsa3072? || a.Rsa4096?
  }

  /** An RSA token "RSA-<n>" asks for an RSA key of n bits and no curve. */
  lemma GetAlgorithmRsa(a: Algorithm)
    requires IsRsa(a)
    ensures Token(a)[..4] == "RSA-"
    ensures var p := GetAlgorithm(Token(a));
      && p.Success? && p.value.keyType == Rsa && p.value.curve.None?
      && p.value.rsaBits.Some? && NumberOf(Token(a)[4..]) == p.value.rsaBits
  {
    match a
    case Rsa2048 => RsaCase(a, 2048, "2048");
    case Rsa3072 => RsaCase(a, 3072, "3072");
    case Rsa4096 => RsaCase(a, 4096, "4096");
  }

  lemma RsaCase(a: Algorithm, bits: nat, suffix: string)
    requires Token(a) == "RSA-" + suffix && Decimal(bits) == suffix
    requires GetAlgorithm(Token(a)) == Success(KeyParams(Rsa, None, Some(bits)))
    ensures Token(a)[..4] == "RSA-" && NumberOf(Token(a)[4..]) == Some(bits)
  {
    assert Token(a)[4..] == suffix;
    NumberOfDecimal(bits);
  }

  /** An ECC token "ECC-<curve>" asks for an ECC key on the curve it names
      (up to letter case) and no RSA size. */
  lemma GetAlgorithmEcc(a: Algorithm)
    requires !IsRsa(a)
    ensures Token(a)[..4] == "ECC-"
    ensures var p := GetAlgorithm(Token(a));
      && p.Success? && p.value.keyType == Ecc && p.value.rsaBits.None?
      && p.value.curve.Some? && Lower(p.value.curve.value) == Lower(Token(a)[4..])
  {
    if a.EccEd25519? || a.EccCurve25519? || a.EccP256? {
      EccFirstCurves(a);
    } else if a.EccP384? || a.EccP521? || a.EccSecp256k1? {
      EccMiddleCurves(a);
    } else if a.EccBrainpoolP256r1? {
      EccCase(a, "brainpoolP256r1", "brainpoolP256r1");
    } else {
      EccBrainpoolCurves(a);
    }
  }

  lemma EccFirstCurves(a: Algorithm)
    requires a.EccEd25519? || a.EccCurve25519? || a.EccP256?
    ensures Token(a)[..4] == "ECC-"
    ensures var p := GetAlgorithm(Token(a));
      && p.Success? && p.value.keyType == Ecc && p.value.rsaBits.None?
      && p.value.curve.Some? && Lower(p.value.curve.value) == Lower(Token(a)[4..])
  {
    match a
    case EccEd25519 => EccCase(a, "ed25519", "ed25519");
    case EccCurve25519 => EccCase(a, "curve25519", "Curve25519");
    case EccP256 => EccCase(a, "p256", "p256");
  }

  lemma EccMiddleCurves(a: Algorithm)
    requires a.EccP384? || a.EccP521? || a.EccSecp256k1?
    ensures Token(a)[..4] == "ECC-"
    ensures var p := GetAlgorithm(Token(a));
      && p.Success? && p.value.keyType == Ecc && p.value.rsaBits.None?
      && p.value.curve.Some? && Lower(p.value.curve.value) == Lower(Token(a)[4..])
  {
    match a
    case EccP384 => EccCase(a, "p384", "p384");
    case EccP521 => EccCase(a, "p521", "p521");
    case EccSecp256k1 => EccCase(a, "secp256k1", "secp256k1");
  }

  lemma EccBrainpoolCurves(a: Algorithm)
    requires a.EccBrainpoolP384r1? || a.EccBrainpoolP512r1?
    ensures Token(a)[..4] == "ECC-"
    ensures var p := GetAlgorithm(Token(a));
      && p.Success? && p.value.keyType == Ecc && p.value.rsaBits.None?
      && p.value.curve.Some? && Lower(p.value.curve.value) == Lower(Token(a)[4..])
  {
    match a
    case EccBrainpoolP384r1 => EccCase(a, "brainpoolP384r1", "brainpoolP384r1");
    case EccBrainpoolP512r1 => EccCase(a, "brainpoolP512r1", "brainpoolP512r1");
  }

  lemma EccCase(a: Algorithm, curve: string, suffix: string)
    requires Token(a) == "ECC-" + suffix
    requires GetAlgorithm(Token(a)) == Success(KeyParams(Ecc, Some(curve), None))
    requires Lower(curve) == Lower(suffix)
    ensures Token(a)[..4] == "ECC-" && Token(a)[4..] == suffix
  {
  }

  /** A parsed key, as the handler sees it after `init`. */
  datatype ParsedKey = ParsedKey(
    id: string,          // hexadecimal key id
    userId: string,      // first user id of the key
    isPrivate: bool,
    isDecrypted: bool,   // meaningful for a private key: not passphrase-locked
    armored: string,     // the armored text the handler was given
    publicHalf: string)  // armored public key derived from this key

  /** An opaque parsed encrypted message. */
  datatype PgpMessage = PgpMessage(armored: string)

  datatype KeyPair = KeyPair(privateKey: string, publicKey: string)

  /** The options passed to the library's key generation. */
  datatype GenerateOptions = GenerateOptions(
    name: string,
    email: string,
    passphrase: Option<string>,
    keyExpirationTime: Option<nat>,  // `Number(expire)`; None stands for NaN
    params: KeyParams)

  /** The cryptographic library, uninterpreted. */
  datatype Engine = Engine(
    readKey: string -> Result<ParsedKey>,
    readMessage: string -> Result<PgpMessage>,
    unlockKey: (ParsedKey, Option<string>) -> Result<ParsedKey>,
    decrypt: (PgpMessage, ParsedKey) -> Result<string>,
    encrypt: (string, ParsedKey) -> Result<string>,
    generate: GenerateOptions -> Result<KeyPair>,
    noKeyError: string)  // what `readKey` throws when given no armored key
  const PrivateKeyEncryptError: string := "Cannot use a private key to encrypt messages. Use a public key instead."
  const PublicKeyDecryptError: string := "Cannot use a public key to decrypt messages. Use a private key instead."

  /** `new OpenPGPHandler(text)` followed by `init()`. The constructor keeps
      only a non-empty text, so an empty one reaches `readKey` as undefined
      and the library throws its own error; otherwise the library parses it
      and the handler keeps the text itself as its armored key. */
  function OpenHandler(engine: Engine, text: string): (r: Result<ParsedKey>)
    ensures text == "" ==> r == Failure(engine.noKeyError)
    ensures r.Success? ==> r.value.armored == text && engine.readKey(text).Success?
    ensures text != "" && engine.readKey(text).Success? ==> r.Success? && r.value == engine.readKey(text).value.(armored := text)
  {
    if text == "" then Failure(engine.noKeyError)
    else
      match engine.readKey(text)
      case Success(k) => Success(k.(armored := text))
      case Failure(e) => Failure(e)
  }

  /** `isDecrypted`: false for a public key, the key's own state otherwise. */
  function IsDecrypted(key: ParsedKey): (r: bool)
    ensures r <==> key.isPrivate && key.isDecrypted
  {
    if !key.isPrivate then false else key.isDecrypted
  }

  /** `encryptMessage`: a private key is refused before the library is used. */
  function EncryptMessage(engine: Engine, key: ParsedKey, message: string): (r: Result<string>)
    ensures key.isPrivate ==> r == Failure(PrivateKeyEncryptError)
    ensures !key.isPrivate ==> r == engine.encrypt(message, key)
  {
    if key.isPrivate then Failure(PrivateKeyEncryptError) else engine.encrypt(message, key)
  }

  /** `decryptMessage`: a public key is refused before the library is used;
      the message is read first; a key that is still locked is unlocked with
      the passphrase, an already decrypted key is used as it is. */
  function DecryptMessage(engine: Engine, key: ParsedKey, ciphertext: string, passphrase: Option<string>): (r: Result<string>)
    ensures !key.isPrivate ==> r == Failure(PublicKeyDecryptError)
    ensures key.isPrivate && engine.readMessage(ciphertext).Failure? ==> r == Failure(engine.readMessage(ciphertext).error)
    ensures r.Success? ==> key.isPrivate && engine.readMessage(ciphertext).Success?
  {
    if !key.isPrivate then Failure(PublicKeyDecryptError)
    else
      match engine.readMessage(ciphertext)
      case Failure(e) => Failure(e)
      case Success(message) =>
        if !key.isDecrypted then
          match engine.unlockKey(key, passphrase)
          case Failure(e) => Failure(e)
          case Success(unlocked) => engine.decrypt(message, unlocked)
        else engine.decrypt(message, key)
  }

  /** The passphrase is used only to unlock a key that is still locked: for a
      decrypted private key it is ignored and the key decrypts directly. */
  lemma PassphraseOnlyForLockedKeys(engine: Engine, key: ParsedKey, ciphertext: string, p: Option<string>, q: Option<string>)
    requires key.isPrivate
    requires engine.readMessage(ciphertext).Success?
    ensures var m := engine.readMessage(ciphertext).value;
      && (IsDecrypted(key) ==> DecryptMessage(engine, key, ciphertext, p) == DecryptMessage(engine, key, ciphertext, q) == engine.decrypt(m, key))
      && (!IsDecrypted(key) ==>
            DecryptMessage(engine, key, ciphertext, p) ==
              (match engine.unlockKey(key, p)
               case Failure(e) => Failure(e)
               case Success(u) => engine.decrypt(m, u)))
  {
  }

  /** The guards do not depend on the library: two engines refuse alike. */
  lemma GuardsIgnoreEngine(e1: Engine, e2: Engine, key: ParsedKey, text: string, p: Option<string>)
    ensures key.isPrivate ==> EncryptMessage(e1, key, text) == EncryptMessage(e2, key, text)
    ensures !key.isPrivate ==> DecryptMessage(e1, key, text, p) == DecryptMessage(e2, key, text, p)
  {
  }

  /** The options `generateKey` builds: one user id, the passphrase when one
      is set (`passphrase ?? undefined`), `Number(expire)` as the lifetime and
      the parameters of the chosen algorithm; an unknown algorithm throws
      before the library is called. */
  function GenerateOptionsFor(algorithm: string, email: string, name: string, passphrase: Option<string>, expire: string): (r: Result<GenerateOptions>)
    ensures r.Success? <==> GetAlgorithm(algorithm).Success?
    ensures r.Success? ==>
      && r.value.params == GetAlgorithm(algorithm).value
      && r.value.name == name && r.value.email == email
      && r.value.passphrase == passphrase
      && r.value.keyExpirationTime == NumberOf(expire)
  {
    match GetAlgorithm(algorithm)
    case Failure(e) => Failure(e)
    case Success(params) => Success(GenerateOptions(name, email, passphrase, NumberOf(expire), params))
  }

  /** `generateKey`: the library is called only with valid options. */
  function GenerateKey(engine: Engine, algorithm: string, email: string, name: string, passphrase: Option<string>, expire: string): (r: Result<KeyPair>)
    ensures GetAlgorithm(algorithm).Failure? ==> r == Failure("Unsupported algorithm: " + algorithm)
    ensures GetAlgorithm(algorithm).Success? ==> r == engine.generate(GenerateOptionsFor(algorithm, email, name, passphrase, expire).value)
  {
    match GenerateOptionsFor(algorithm, email, name, passphrase, expire)
    case Failure(e) => Failure(e)
    case Success(options) => engine.generate(options)
  }
}

=== FILE: text.dfy ===
/** String helpers the source takes from JavaScript's runtime:
    `toUpperCase`, `Array.prototype.join`, `String(n)`, `padStart(2, "0")`
    and `Number(s)` on digit strings. */
module Text {
  import opened Wrappers

  predicate IsLower(c: char) {
    'a' <= c <= 'z'
  }

  predicate IsUpper(c: char) {
    'A' <= c <= 'Z'
  }

  predicate IsDigit(c: char) {
    '0' <= c <= '9'
  }

  /** `toUpperCase` on one character (ASCII letters only). */
  function UpperChar(c: char): (u: char)
    ensures !IsLower(u)
    ensures u == ' ' <==> c == ' '
    ensures IsLower(c) ==> IsUpper(u) && u as int == c as int - 32
    ensures !IsLower(c) ==> u == c
  {
    if IsLower(c) then (c as int - 32) as char else c
  }

  /** `toLowerCase` on one character (ASCII letters only). */
  function LowerChar(c: char): (l: char)
    ensures !IsUpper(l)
    ensures IsUpper(c) ==> IsLower(l)
    ensures !IsUpper(c) ==> l == c
  {
    if IsUpper(c) then (c as int + 32) as char else c
  }

  function Upper(s: string): (u: string)
    ensures |u| == |s|
    ensures forall i :: 0 <= i < |s| ==> u[i] == UpperChar(s[i])
    ensures forall i :: 0 <= i < |u| ==> !IsLower(u[i])
  {
    seq(|s|, i requires 0 <= i < |s| => UpperChar(s[i]))
  }

  function Lower(s: string): (l: string)
    ensures |l| == |s|
    ensures forall i :: 0 <= i < |s| ==> l[i] == LowerChar(s[i])
  {
    seq(|s|, i requires 0 <= i < |s| => LowerChar(s[i]))
  }

  /** Upper-casing a lower-case letter and lower-casing it again gives the
      letter back: each letter goes to its own capital. */
  lemma LowerUpperChar(c: char)
    requires IsLower(c)
    ensures LowerChar(UpperChar(c)) == c
  {
  }

  /** Upper-casing twice is upper-casing once. */
  lemma UpperIdempotent(s: string)
    ensures Upper(Upper(s)) == Upper(s)
  {
  }

  /** `parts.join(sep)`. */
  function Join(parts: seq<string>, sep: string): string
  {
    if |parts| == 0 then ""
    else if |parts| == 1 then parts[0]
    else parts[0] + sep + Join(parts[1..], sep)
  }

  /** All parts written one after another. */
  function Concat(parts: seq<string>): string
  {
    if |parts| == 0 then "" else parts[0] + Concat(parts[1..])
  }

  function Sum(parts: seq<string>): nat
  {
    if |parts| == 0 then 0 else |parts[0]| + Sum(parts[1..])
  }

  /** The text with every space removed. */
  function RemoveSpaces(s: string): (r: string)
    ensures forall i :: 0 <= i < |r| ==> r[i] != ' '
  {
    if |s| == 0 then ""
    else if s[0] == ' ' then RemoveSpaces(s[1..])
    else [s[0]] + RemoveSpaces(s[1..])
  }

  lemma {:induction false} RemoveSpacesAppend(a: string, b: string)
    ensures RemoveSpaces(a + b) == RemoveSpaces(a) + RemoveSpaces(b)
    decreases |a|
  {
    if |a| == 0 {
      assert a + b == b;
    } else {
      assert (a + b)[1..] == a[1..] + b;
      RemoveSpacesAppend(a[1..], b);
    }
  }

  lemma {:induction false} RemoveSpacesUpper(s: string)
    ensures RemoveSpaces(Upper(s)) == Upper(RemoveSpaces(s))
    decreases |s|
  {
    if |s| > 0 {
      assert Upper(s)[1..] == Upper(s[1..]);
      RemoveSpacesUpper(s[1..]);
      if s[0] != ' ' {
        assert Upper([s[0]] + RemoveSpaces(s[1..])) == [UpperChar(s[0])] + Upper(RemoveSpaces(s[1..]));
      }
    }
  }

  /** Joining with a single space and then dropping the spaces is the same as
      dropping the spaces of the parts written one after another. */
  lemma {:induction false} RemoveSpacesJoin(parts: seq<string>)
    ensures RemoveSpaces(Join(parts, " ")) == RemoveSpaces(Concat(parts))
    decreases |parts|
  {
    if |parts| == 1 {
      assert Concat(parts) == parts[0] + Concat(parts[1..]);
      assert Concat(parts[1..]) == "";
      assert parts[0] + "" == parts[0];
    } else if |parts| > 1 {
      RemoveSpacesJoin(parts[1..]);
      RemoveSpacesAppend(parts[0] + " ", Join(parts[1..], " "));
      RemoveSpacesAppend(parts[0], " ");
      assert RemoveSpaces(" ") == "";
      RemoveSpacesAppend(parts[0], Concat(parts[1..]));
      assert RemoveSpaces(parts[0]) + "" == RemoveSpaces(parts[0]);
    }
  }

  /** A join of n > 0 parts is their total length plus n - 1 separators. */
  lemma {:induction false} JoinLength(parts: seq<string>)
    requires |parts| > 0
    ensures |Join(parts, " ")| == Sum(parts) + |parts| - 1
    decreases |parts|
  {
    if |parts| > 1 {
      JoinLength(parts[1..]);
    } else {
      assert Sum(parts) == |parts[0]| + Sum(parts[1..]);
    }
  }

  /** Decimal digits of a natural number (`String(n)`). */
  function Decimal(n: nat): (s: string)
    ensures |s| > 0
    ensures forall i :: 0 <= i < |s| ==> IsDigit(s[i])
    decreases n
  {
    if n < 10 then [DigitChar(n)] else Decimal(n / 10) + [DigitChar(n % 10)]
  }

  function DigitChar(d: nat): (c: char)
    requires d < 10
    ensures IsDigit(c)
  {
    ('0' as int + d) as char
  }

  /** `String(n).padStart(2, "0")`. */
  function Pad2(n: nat): string
  {
    if n < 10 then "0" + Decimal(n) else Decimal(n)
  }

  /** Value of a non-empty string of decimal digits. */
  function DigitsValue(s: string): nat
    requires |s| > 0
    requires forall i :: 0 <= i < |s| ==> IsDigit(s[i])
  {
    if |s| == 1 then DigitValue(s[0])
    else 10 * DigitsValue(s[..|s| - 1]) + DigitValue(s[|s| - 1])
  }

  function DigitValue(c: char): (d: nat)
    requires IsDigit(c)
    ensures d < 10
  {
    c as int - '0' as int
  }

  /** `Number(s)` on the strings this model feeds it: the empty string is 0, a
      string of decimal digits is its value, anything else is `NaN` (None). */
  function NumberOf(s: string): (r: Option<nat>)
    ensures r.None? <==> exists i :: 0 <= i < |s| && !IsDigit(s[i])
  {
    if |s| == 0 then Some(0)
    else if forall i :: 0 <= i < |s| ==> IsDigit(s[i]) then Some(DigitsValue(s))
    else None
  }

  /** `Number(String(n)) == n`. */
  lemma {:induction false} NumberOfDecimal(n: nat)
    ensures NumberOf(Decimal(n)) == Some(n)
    decreases n
  {
    if n >= 10 {
      NumberOfDecimal(n / 10);
      var s := Decimal(n);
      assert s[..|s| - 1] == Decimal(n / 10);
    }
  }

  /** Two-digit padding keeps two characters for n < 100 and reads back as n. */
  lemma Pad2RoundTrip(n: nat)
    requires n < 100
    ensures |Pad2(n)| == 2
    ensures NumberOf(Pad2(n)) == Some(n)
  {
    if n < 10 {
      var p := Pad2(n);
      assert p == ['0', DigitChar(n)];
      assert p[..1] == "0";
      assert DigitsValue(p) == 10 * DigitsValue(p[..1]) + DigitValue(p[1]);
    } else {
      assert Decimal(n) == Decimal(n / 10) + [DigitChar(n % 10)];
      NumberOfDecimal(n);
    }
  }
}

=== FILE: upload_key.dfy ===
/** The two upload modals of the settings (setting/modals/uploadPrivatekey.ts
    and setting/modals/uploadPublickey.ts): a key pasted or picked from disk
    is checked for its kind and written to the key folder. */
module UploadKey {
  import opened Wrappers
  import opened Vault
  import OpenPgp

  /** Longest key file the file picker accepts, in characters. */
  const MaxKeyFileLength: nat := 10000

  const TooLarge: string := "The file is too large"

  datatype Picked = Picked(textarea: string, notice: Option<string>)

  /** A file picked from disk fills the text area verbatim unless it is too
      long, in which case the text area keeps its contents. */
  function PickKeyFile(textarea: string, contents: string): (r: Picked)
    ensures |contents| > MaxKeyFileLength ==> r == Picked(textarea, Some(TooLarge))
    ensures |contents| <= MaxKeyFileLength ==> r == Picked(contents, None)
    ensures |r.textarea| <= MaxKeyFileLength || r.textarea == textarea
  {
    if |contents| > MaxKeyFileLength then Picked(textarea, Some(TooLarge)) else Picked(contents, None)
  }

  /** What a modal's submit leaves: the write it issued, whether the modal
      closed, whether the settings list was redrawn, the notice shown. */
  datatype Submitted = Submitted(write: Option<FileWrite>, closed: bool, settingsRefreshed: bool, notice: string)

  const NotPrivateKey: string := "The key is not a private key"
  const NotPublicKey: string := "The key is not a public key"

  /** The private-key modal: the text must parse as a private key; it is then
      written verbatim to `.pgp/<id>_secret.asc`, and the modal closes and the
      settings redraw only if the write succeeded (`writeError` is the
      vault's answer). */
  function SubmitPrivateKey(engine: OpenPgp.Engine, text: string, writeError: Option<string>): (r: Submitted)
    ensures r.write.Some? <==> OpenPgp.OpenHandler(engine, text).Success? && OpenPgp.OpenHandler(engine, text).value.isPrivate
    ensures r.write.Some? ==> r.write.value == FileWrite(KeyPath(OpenPgp.OpenHandler(engine, text).value.id + "_secret.asc"), text)
    ensures r.closed <==> r.write.Some? && writeError.None?
    ensures r.settingsRefreshed == r.closed
    ensures OpenPgp.OpenHandler(engine, text).Success? && !OpenPgp.OpenHandler(engine, text).value.isPrivate ==>
      r == Submitted(None, false, false, NotPrivateKey)
  {
    match OpenPgp.OpenHandler(engine, text)
    case Failure(e) => Submitted(None, false, false, e)
    case Success(key) =>
      if !key.isPrivate then Submitted(None, false, false, NotPrivateKey)
      else
        var write := FileWrite(KeyPath(key.id + "_secret.asc"), text);
        if writeError.Some? then Submitted(Some(write), false, false, writeError.value)
        else Submitted(Some(write), true, true, "Private key uploaded successfully")
  }

  /** The public-key modal: the text must parse as a key that is not private;
      it is then written verbatim to `.pgp/<id>_public.asc`, and the modal
      closes only if the write succeeded. */
  function SubmitPublicKey(engine: OpenPgp.Engine, text: string, writeError: Option<string>): (r: Submitted)
    ensures r.write.Some? <==> OpenPgp.OpenHandler(engine, text).Success? && !OpenPgp.OpenHandler(engine, text).value.isPrivate
    ensures r.write.Some? ==> r.write.value == FileWrite(KeyPath(OpenPgp.OpenHandler(engine, text).value.id + "_public.asc"), text)
    ensures r.closed <==> r.write.Some? && writeError.None?
    ensures !r.settingsRefreshed
    ensures OpenPgp.OpenHandler(engine, text).Success? && OpenPgp.OpenHandler(engine, text).value.isPrivate ==>
      r == Submitted(None, false, false, NotPublicKey)
  {
    match OpenPgp.OpenHandler(engine, text)
    case Failure(e) => Submitted(None, false, false, e)
    case Success(key) =>
      if key.isPrivate then Submitted(None, false, false, NotPublicKey)
      else
        var write := FileWrite(KeyPath(key.id + "_public.asc"), text);
        if writeError.Some? then Submitted(Some(write), false, false, writeError.value)
        else Submitted(Some(write), true, false, "Public key uploaded successfully")
  }

  /** The two modals accept complementary kinds of key: no text is written
      by both. */
  lemma ModalsAreComplementary(engine: OpenPgp.Engine, text: string, e1: Option<string>, e2: Option<string>)
    ensures !(SubmitPrivateKey(engine, text, e1).write.Some? && SubmitPublicKey(engine, text, e2).write.Some?)
    ensures OpenPgp.OpenHandler(engine, text).Success? ==>
      SubmitPrivateKey(engine, text, e1).write.Some? || SubmitPublicKey(engine, text, e2).write.Some?
  {
  }
}

=== FILE: vault.dfy ===
/** The vault adapter's writes, returned as effects instead of performed. */
module Vault {

  /** The folder every key file lives in. */
  const KeyFolder: string := ".pgp"

  datatype FileWrite = FileWrite(path: string, content: string)

  /** `.pgp/<name>`. */
  function KeyPath(name: string): (p: string)
    ensures |p| == |KeyFolder| + 1 + |name|
    ensures p[..|KeyFolder| + 1] == KeyFolder + "/" && p[|KeyFolder| + 1..] == name
  {
    KeyFolder + "/" + name
  }
}

=== FILE: wrappers.dfy ===
/** Wrappers shared by every module of the model:
    `Option` for JavaScript's `undefined`-or-value and `Result` for a call
    that either returns or throws an `Error` whose message is a string. */
module Wrappers {

  datatype Option<+T> = None | Some(value: T) {

    /** The value, or `default` when absent (JavaScript's `??`). */
    function GetOr(default: T): T {
      match this
      case Some(v) => v
      case None => default
    }
  }

  datatype Result<+R> = Success(value: R) | Failure(error: string)
}
